=== FILE: README.md ===
# LinkedIn search scraper of CareerGenie.ai, in Dafny

CareerGenie.ai suggests jobs for a résumé. It does this by scraping LinkedIn's
public search pages in `utils/job_scraper.py`. This project models that
scraper:

- how it builds its search URLs:
  - the job search uses `quote_plus`, the India geography `102713980` and the
    optional `exp` level;
  - the people search uses space-to-`%20` escaping and the experience codes
    1-6;
- how it turns the first ten cards of a result page into listings or
  profiles:
  - fallback literals for missing elements;
  - placeholders for texts LinkedIn masks with `**`;
  - absolute profile links;
- how it assembles per-term results:
  - the job searches skip a term whose request fails;
  - the people search stops at the first exception.

The model is functional. The network is a function from URL to outcome. An
outcome is either a request error or a response: a status code plus the page,
already reduced to the elements the scraper reads.

Modules:

| file | module | what it holds |
|---|---|---|
| `outcomes.dfy` | `Outcomes` | `Option` and `Result`, and running a step over a sequence up to the first error |
| `strings.dfy` | `Strings` | substring search (Python's `in` on strings) and splitting on a character, with their declarative meaning |
| `utf8.dfy` | `Utf8` | UTF-8 encoding with its decoder |
| `url_quote.dfy` | `UrlQuote` | `quote_plus` (sections 2.1 and 2.3 of RFC 3986) with its strict inverse |
| `queries.dfy` | `Queries` | the search URLs, and a reader for query strings used to state what they carry |
| `fetching.dfy` | `Fetching` | responses, request errors, `raise_for_status` |
| `listings.dfy` | `Listings` | job cards to listings |
| `people.dfy` | `People` | `fetch_people` |
| `scraper.dfy` | `Scraper` | construction of the scrapers, `fetch_jobs`, `fetch_jobs_OutsideIndia`, `fetch_people` |

Some behaviours of the code are easy to miss:

- **A failed job-search request drops the term.** The `except` branch
  `continue`s past the `append` (lines 36-41 and 75-80). So the term leaves no
  batch, not even one with no listings.
- **There is no early-applicant filter.** Neither URL builder has a parameter
  for one.
- **`raise_for_status` raises only for statuses 400-599.** A 1xx or 3xx
  response is parsed like a 200.
- **The people search has no failure isolation.**
  - `requests.get` (line 165) is outside any `try`, so a request error ends the
    whole call.
  - `person.find("a")["href"]` (line 181) raises `KeyError` for an `<a>` without
    `href`, which also ends the whole call.
  - Only status 200 is read. Any other status, 4xx and 5xx included, records
    the level with no profiles.
- **The people-search URL escapes only spaces.**
  - For a term containing `&`, the `keywords` parameter is cut short
    (`Queries.AmpersandCutsPeopleKeywords`).
  - For a term containing `#`, everything from the `#` on is the URL's
    fragment (section 3.5 of RFC 3986), which the HTTP client leaves out of
    the request. What remains holds none of `f_E`, `origin` and `sid`, so the
    six requests for that term are one and the same (`Queries.HashCutsPeopleQuery`,
    `Queries.HashMakesLevelsCoincide`).
  - A `+` in the term is written into the URL as it is. A reader of the query string that
    decodes it as a form, as it would for the job search, reads that `+` as a
    space: "C++" comes back as "C" and two spaces
    (`Queries.PlusReadAsSpace`).
  - A `%` in the term is written into the URL as it is too. So in the URL
    text a `%20` or `%XX` already in the term cannot be told apart from the
    escape of a space: undoing the escape gives back the term only when it
    holds no `%` (`Queries.UnescapeEscapedSpaces`). What then goes over the
    wire depends on the HTTP client's re-quoting, which is left out below.
  - The job search escapes the term with `quote_plus`, which never lets a
    delimiter through (`UrlQuote.QuotePlus`, `UrlQuote.DequoteQuotePlus`).

## Model

| member | source | states |
|---|---|---|
| `UrlQuote.QuotePlus` | utils/job_scraper.py:30 | the escaped term is made only of unreserved characters, `+` and `%`, so it cannot contain `&`, `=`, `?` or a space; it is never shorter than the term |
| `UrlQuote.DequoteQuotePlus` | utils/job_scraper.py:30 | escaping loses nothing: decoding `quote_plus(term)` gives back every term exactly |
| `UrlQuote.QuotePlusKeepsUnreserved` | utils/job_scraper.py:30 | a term made only of unreserved characters is put in the URL unchanged |
| `Utf8.Encode` | utils/job_scraper.py:30 | each character takes one to four bytes, and the encoding is as long as the string exactly when every character is ASCII |
| `Utf8.DecodeEncode` | utils/job_scraper.py:30 | the UTF-8 step of `quote_plus` is reversible for every string |
| `Strings.ContainsMeansOccurs` | utils/job_scraper.py:50 | Python's `in` on strings, as used for `**` (lines 50 and 55) and `linkedin.com` (line 187), is true exactly when the pattern occurs at some position |
| `Queries.ExperienceSuffix` | utils/job_scraper.py:33-34 | nothing is appended exactly when the level is falsy; otherwise `&exp=` and a quoted level that decodes back to the level; never a space or `#` |
| `Queries.JobsUrl` | utils/job_scraper.py:30-34 | a job URL, India or worldwide (lines 90-94), starts with the search address and, since term and level are quoted, holds no space and no `#`, so no part of it is cut off as a fragment |
| `Queries.JobsUrlParameters` | utils/job_scraper.py:30-34 | the job URL's path is the search path; its parameters are exactly keywords, the India geography when asked for, and `exp` only for a truthy level; keywords and level read back to the given strings, even a level that itself holds `&` and `=` |
| `Queries.GeographyOnlyForIndia` | utils/job_scraper.py:27-31 | a `geoId` parameter is present if and only if the search is the India one, and it is then the second parameter with value 102713980 |
| `Queries.ExpOnlyForTruthyLevel` | utils/job_scraper.py:33-34 | an `exp` parameter is present if and only if the level is truthy, so `None` and `""` add nothing |
| `Queries.WorldwideUrlDropsGeography` | utils/job_scraper.py:89-94 | the worldwide URL is the India URL with exactly the `&geoId=102713980` segment removed, so the two always differ |
| `Queries.ExperienceLevelsInOrder` | utils/job_scraper.py:151-158 | six levels, visited in dictionary order with codes 1 to 6, with distinct labels |
| `Queries.EscapeSpaces` | utils/job_scraper.py:164 | the escaped term has no space left |
| `Queries.UnescapeEscapedSpaces` | utils/job_scraper.py:164 | reading every `%20` back as a space recovers a term that has no `%` of its own |
| `Queries.PeopleUrl` | utils/job_scraper.py:164 | the people URL holds no space, and it has a fragment exactly when the term holds a `#` |
| `Queries.PeopleUrlParameters` | utils/job_scraper.py:164 | for a term without `&` or `#`, the people URL carries keywords, `f_E` with the level's code, `origin` and `sid`, in that order; the keywords are the term with spaces as `%20`, and undoing that escape gives back a term that holds no `%` |
| `Queries.PlusReadAsSpace` | utils/job_scraper.py:164 | the people keywords for "C++" are "C++", which undoing the `%20` escape keeps, but which form decoding reads as "C" and two spaces |
| `Queries.AmpersandCutsPeopleKeywords` | utils/job_scraper.py:164 | for a term with `&`, the keywords parameter read from the people URL is never the escaped term |
| `Queries.HashCutsPeopleQuery` | utils/job_scraper.py:164 | for a term with `#`, the people URL's text before its fragment ends at the term's first `#`; without `&` in the term, its only parameter is the keywords up to the `#` |
| `Queries.HashMakesLevelsCoincide` | utils/job_scraper.py:163-165 | for a term with `#`, any two experience levels give the same URL text before the fragment, so the same request |
| `Fetching.PageAfterChecks` | utils/job_scraper.py:36-41 | a page is parsed exactly when the request returned and its status is outside 400-599, and it is that response's page |
| `Listings.Redact` | utils/job_scraper.py:50-51 | a text showing `**` anywhere becomes the placeholder; every other text is kept |
| `Listings.TitleOf` | utils/job_scraper.py:48-51 | title is "No Title" without an `h3`, the hidden-position placeholder for a masked text, otherwise the text; never masked |
| `Listings.CompanyOf` | utils/job_scraper.py:53-56 | company is "Unknown Company" without an `h4`, "Company Name Hidden" for a masked text, otherwise the text; never masked |
| `Listings.LinkOf` | utils/job_scraper.py:64-65 | link is the first `<a>`'s `href` verbatim, or "No Link" when there is no `<a>` or no `href` |
| `Listings.FallbacksUnmasked` | utils/job_scraper.py:48-56 | no fallback literal and no placeholder shows `**`, so redaction never rewrites them |
| `Listings.ToListing` | utils/job_scraper.py:47-73 | title, company and link come from the `h3`, the `h4` and the first `<a>` by the rules of `TitleOf`, `CompanyOf` and `LinkOf`; location and posted time are their elements' texts or "No Location" and "Unknown Time"; title and company are never masked |
| `Listings.UnmaskedCardVerbatim` | utils/job_scraper.py:47-73 | a card with all five elements, an `href` and no `**` in title or company gives exactly its five texts |
| `Listings.MaskedFieldsHidden` | utils/job_scraper.py:48-56 | a masked title becomes the hidden-position placeholder and a masked company "Company Name Hidden", whatever else the card holds |
| `Listings.FieldsIndependent` | utils/job_scraper.py:47-73 | each field of a listing depends only on its own element, so a missing element costs only its own field |
| `Listings.MissingTitleOnly` | utils/job_scraper.py:47-73 | a card missing only its `h3` still yields all four other fields from its elements |
| `Listings.ListingsOf` | utils/job_scraper.py:45-47 | one listing per card up to ten, so exactly ten when there are ten cards or more, listing `i` made from card `i`, in document order |
| `Scraper.NewLinkedInScraper` | utils/job_scraper.py:10-11 | the job-title scraper searches its argument's terms, normalised to a list |
| `Scraper.SearchTermsOf` | utils/job_scraper.py:10-11 | a list of terms is kept as given; a single value becomes a one-element list |
| `Scraper.NewSkillScraper` | utils/job_scraper.py:198-201 | the skill scraper normalises its argument like the job-title scraper |
| `Scraper.SkillScraperSearchesAlike` | utils/job_scraper.py:198-201 | built from the same argument, the skill scraper gives the same result as the job-title scraper in all three searches |
| `Scraper.BatchFor` | utils/job_scraper.py:36-80 | a term yields a batch exactly when its page passes the checks; the batch records the term, "LinkedIn", the listings of that page and the URL requested |
| `Scraper.JobBatches` | utils/job_scraper.py:29-82 | at most one batch per term; every batch names one of the terms and links the URL built for it; when every request succeeds there is one batch per term |
| `Scraper.BatchesOfSuccessfulTerms` | utils/job_scraper.py:29-82 | there is one batch per successful term, and a successful term's batch sits right after those of the successful terms before it; a failed term leaves nothing |
| `Scraper.BatchPositionsIncrease` | utils/job_scraper.py:29-82 | batches keep the order of their terms |
| `Scraper.FetchJobs` | utils/job_scraper.py:23-31 | at most one batch per term, each linking the India URL of its term |
| `Scraper.IndiaBatchesCarryGeography` | utils/job_scraper.py:27-31 | every apply link of the India search has `geoId=102713980` as its second parameter |
| `Scraper.FetchJobsOutsideIndia` | utils/job_scraper.py:84-91 | at most one batch per term, each linking the worldwide URL of its term |
| `Scraper.WorldwideBatchesLackGeography` | utils/job_scraper.py:89-91 | no apply link of the worldwide search has a `geoId` parameter |
| `Scraper.FetchPeople` | utils/job_scraper.py:147-161 | a successful people search has one result per search term |
| `People.AbsoluteLink` | utils/job_scraper.py:187 | the link is kept if and only if it mentions `linkedin.com`, otherwise it gets `https://www.linkedin.com` in front; the result always mentions the domain |
| `People.AbsoluteLinkIdempotent` | utils/job_scraper.py:187 | making a profile link absolute twice changes nothing more |
| `People.RawLink` | utils/job_scraper.py:181 | the first `<a>`'s `href`, "No Profile Link" without an `<a>`, and an error exactly when the `<a>` has no `href` |
| `People.NoAnchorLink` | utils/job_scraper.py:181-187 | a card without `<a>` gets the link `https://www.linkedin.comNo Profile Link`, because the placeholder does not mention the domain |
| `People.ToProfile` | utils/job_scraper.py:172-188 | a card fails exactly when its `<a>` lacks `href`; otherwise name, position and location are their texts or their literals, and the link is the raw link made absolute, which mentions the domain |
| `People.ProfileLinkFromHref` | utils/job_scraper.py:181-187 | a card whose `<a>` has an `href` gives a profile; its link is the `href` itself when that mentions `linkedin.com`, otherwise the `href` behind `https://www.linkedin.com` |
| `People.Profiles` | utils/job_scraper.py:170-188 | the first ten cards give one profile each, in order, profile `i` from card `i`; the page fails exactly when one of those ten cards has an `<a>` without `href` |
| `People.PeopleEntryFor` | utils/job_scraper.py:163-191 | an entry fails exactly when its request raises or a card of its 200 page lacks `href`; it records the level's label and the URL; a non-200 status gives no profiles, a 200 status the page's profiles |
| `People.EntriesFor` | utils/job_scraper.py:163-191 | a term's entries succeed exactly when every level's entry does, one per level in level order |
| `People.TermResult` | utils/job_scraper.py:160-193 | a term's result names the term and holds its entries over the six levels |
| `People.FetchPeople` | utils/job_scraper.py:160-195 | the search succeeds exactly when every term's result does, and then gives one result per term, in order; otherwise it reports the error of the first term that fails |
| `People.FetchPeopleSucceeds` | utils/job_scraper.py:160-195 | the search succeeds if and only if every request for every term and level succeeds and no card of a 200 page lacks `href` |
| `People.FetchPeopleShape` | utils/job_scraper.py:151-193 | in a successful search every term has six entries with the levels' labels in order, each linking that level's URL and holding at most ten profiles |

## Left out

- **Requests and sessions:** the HTTP exchange, the `requests.Session`, the
  user-agent header and the 10-second timeout are replaced by a fetch
  function passed in. That function answers the same URL the same way every
  time it is asked.
- **Logging:** the `print` of a failed job-search request is not modelled,
  since it has no effect on the result.
- **HTML parsing:** BeautifulSoup's parsing, its CSS selection and
  `get_text(strip=True)` are not modelled. A page is the sequence of cards the
  selection returns, each holding its elements' stripped texts. The model
  assumes the parser finds the same cards and texts as BeautifulSoup's selection
  would.
- **Non-string terms:** the constructor accepts any value as a single term.
  The model takes a string, since every search concatenates the term into a
  URL as a string.
- **The people search's level argument:** `fetch_people`'s `Exp_Level`
  parameter is never read by the code, so the model has no such parameter.
- **The base-class search:** `JobScraper.fetch_jobs` only raises
  `NotImplementedError` for subclasses to override. It performs no search, so
  it is not modelled.
- **Request-error details:** the wording of exceptions is not modelled, beyond
  which kind of request error occurred.
- People.EntriesFor: the contract says when a term's entries fail, but not
  which level's error is reported. The code reports the first failing level.
- **Non-string experience level:** the job searches pass `Exp_Level` to
  `quote_plus` at lines 34 and 94, outside the `try`. A truthy value other
  than `str`, `bytes` or `bytearray` raises `TypeError` there and ends the
  whole call. A `bytes` or `bytearray` level is quoted byte by byte, with no
  UTF-8 step. The model's level is an optional string, so it can express
  neither case.
- **Re-quoting by the HTTP client:** `requests` and the `urllib3` under it
  re-quote a URL before sending it. For example, when a `%` in it does not
  start a valid `%XX` escape, every `%` is written as `%25`; and `%XX` escapes
  of unreserved characters are decoded. `Queries.SentPart` is therefore the
  URL text before the `#`, as the scraper builds it, and not the request line
  that goes over the wire. The scraper's own results, such as each batch's
  apply link, are that URL text.
- **Lone surrogates:** a Python string may hold a lone surrogate, and
  `quote_plus` (line 30) then raises `UnicodeEncodeError` outside the `try`,
  ending the whole call. A Dafny `char` is a Unicode scalar value, so the
  model's terms cannot hold one.
- **Blocking people requests:** `requests.get` at line 165 has no timeout, so
  it can wait forever. The model's fetch always answers.
- **The rest of the repository:** the web application, the résumé parser, the
  career advisor and the résumé improver are not part of this model.

=== FILE: fetching.dfy ===
/** What a GET request can come back with. The network itself is not modelled:
    the scraper receives a function from URL to outcome. */
module Fetching {
  import opened Outcomes

  /** The `requests` exceptions raised before any response is available. */
  datatype RequestError = Timeout | ConnectionFailed | OtherRequestError(reason: string)

  /** A response: its status code and the page, already reduced by the HTML
      selection to the elements the scraper reads. */
  datatype Response<P> = Response(status: int, page: P)

  /** `requests`' `raise_for_status` raises for client errors (400-499) and
      server errors (500-599), and for no other status. */
  predicate RaisesForStatus(status: int) {
    400 <= status < 600
  }

  /** The page the scraper goes on to parse after `session.get(...)` followed
      by `raise_for_status()`, or `None` when either raised. */
  function PageAfterChecks<P>(outcome: Result<Response<P>, RequestError>): (page: Option<P>)
    ensures page.Some? <==> outcome.Ok? && !RaisesForStatus(outcome.value.status)
    ensures page.Some? ==> page.value == outcome.value.page
  {
    match outcome
    case Err(_) => None
    case Ok(response) => if RaisesForStatus(response.status) then None else Some(response.page)
  }
}

=== FILE: listings.dfy ===
/** Turning the job cards of a LinkedIn search page into listing records
    (utils/job_scraper.py, the per-card loop of `fetch_jobs`). A card is what
    the HTML selection found: the stripped text of its `h3`, `h4`, location
    span and `time` elements, each absent when the element is missing, and its
    first `<a>` element with an optional `href`. */
module Listings {
  import opened Outcomes
  import opened Strings

  datatype Anchor = Anchor(href: Option<string>)

  datatype Card = Card(
    title: Option<string>,
    company: Option<string>,
    location: Option<string>,
    time: Option<string>,
    anchor: Option<Anchor>)

  datatype Listing = Listing(
    title: string,
    company: string,
    location: string,
    posted: string,
    link: string)

  /** Only the first ten cards of a page become listings. */
  const MaxListings := 10

  const NoTitle := "No Title"
  const UnknownCompany := "Unknown Company"
  const NoLocation := "No Location"
  const UnknownTime := "Unknown Time"
  const NoLink := "No Link"
  /** The placeholder for a masked title, one string written in three pieces
      so that each piece can be checked for the marker on its own. */
  const HiddenTitle := "Position Name Hidden" + " by LinkedIn" + " (click to know more)"
  const HiddenCompany := "Company Name Hidden"

  /** LinkedIn's masking marker. */
  const MaskMarker := "**"

  /** The text shows LinkedIn's masking marker somewhere. */
  ghost predicate Masked(s: string) {
    exists i :: OccursAt(s, MaskMarker, i)
  }

  /** A masked text has an asterisk. */
  lemma MaskedHasStar(s: string)
    ensures Masked(s) ==> '*' in s
  {
    if Masked(s) {
      var i :| OccursAt(s, MaskMarker, i);
      assert s[i..i + |MaskMarker|][0] == s[i];
    }
  }

  /** The masked-text rule: a text showing the marker is replaced by the
      placeholder, any other text is kept. */
  function Redact(text: string, placeholder: string): (r: string)
    ensures Masked(text) ==> r == placeholder
    ensures !Masked(text) ==> r == text
  {
    ContainsMeansOccurs(text, MaskMarker);
    if Contains(text, MaskMarker) then placeholder else text
  }

  /** The title: "No Title" without an `h3`, the placeholder for a masked
      text, otherwise the text as it stands (an empty `h3` gives ""). */
  function TitleOf(h3: Option<string>): (r: string)
    ensures h3.None? ==> r == NoTitle
    ensures h3.Some? && Masked(h3.value) ==> r == HiddenTitle
    ensures h3.Some? && !Masked(h3.value) ==> r == h3.value
    ensures !Masked(r)
  {
    FallbacksUnmasked();
    Redact(h3.GetOr(NoTitle), HiddenTitle)
  }

  /** The company: "Unknown Company" without an `h4`, the placeholder for a
      masked text, otherwise the text as it stands. */
  function CompanyOf(h4: Option<string>): (r: string)
    ensures h4.None? ==> r == UnknownCompany
    ensures h4.Some? && Masked(h4.value) ==> r == HiddenCompany
    ensures h4.Some? && !Masked(h4.value) ==> r == h4.value
    ensures !Masked(r)
  {
    FallbacksUnmasked();
    Redact(h4.GetOr(UnknownCompany), HiddenCompany)
  }

  /** The link: the `href` of the first `<a>` copied verbatim, or "No Link"
      when there is no `<a>` or it has no `href`. */
  function LinkOf(anchor: Option<Anchor>): (r: string)
    ensures anchor.Some? && anchor.value.href.Some? ==> r == anchor.value.href.value
    ensures anchor.None? || anchor.value.href.None? ==> r == NoLink
  {
    match anchor
    case Some(Anchor(Some(href))) => href
    case _ => NoLink
  }

  /** No fallback literal and no placeholder shows the masking marker, so the
      redaction never touches them. */
  lemma FallbacksUnmasked()
    ensures !Masked(NoTitle) && !Masked(UnknownCompany)
    ensures !Masked(HiddenTitle) && !Masked(HiddenCompany)
  {
    MaskedHasStar(NoTitle);
    MaskedHasStar(UnknownCompany);
    MaskedHasStar(HiddenCompany);
    HiddenTitleUnmasked();
  }

  lemma HiddenTitleUnmasked()
    ensures !Masked(HiddenTitle)
  {
    HiddenTitleStarless();
    MaskedHasStar(HiddenTitle);
  }

  lemma HiddenTitleStarless()
    ensures '*' !in HiddenTitle
  {
    var a, b, c := "Position Name Hidden", " by LinkedIn", " (click to know more)";
    HiddenTitlePieces();
    StarlessPieces(HiddenTitle, a, b, c);
  }

  lemma HiddenTitlePieces()
    ensures HiddenTitle == "Position Name Hidden" + " by LinkedIn" + " (click to know more)"
    ensures '*' !in "Position Name Hidden" && '*' !in " by LinkedIn" && '*' !in " (click to know more)"
  {
    NameHiddenStarless();
    ClickStarless();
  }

  lemma NameHiddenStarless()
    ensures '*' !in "Position Name Hidden" && '*' !in " by LinkedIn"
  {
  }

  lemma ClickStarless()
    ensures '*' !in " (click to know more)"
  {
  }

  lemma StarlessPieces(h: string, a: string, b: string, c: string)
    requires h == a + b + c
    requires '*' !in a && '*' !in b && '*' !in c
    ensures '*' !in h
  {
  }

  /** One card as a listing. Every field comes from its own element alone:
      title, company and link by their rules, location and posted time as
      the element's text or their fallback. */
  function ToListing(card: Card): (l: Listing)
    ensures l.title == TitleOf(card.title) && l.company == CompanyOf(card.company)
    ensures l.link == LinkOf(card.anchor)
    ensures l.location == card.location.GetOr(NoLocation)
    ensures l.posted == card.time.GetOr(UnknownTime)
    ensures !Masked(l.title) && !Masked(l.company)
  {
    Listing(
      TitleOf(card.title),
      CompanyOf(card.company),
      card.location.GetOr(NoLocation),
      card.time.GetOr(UnknownTime),
      LinkOf(card.anchor))
  }

  /** A card with all five elements, an `href` and no masked text is copied
      into its listing verbatim. */
  lemma UnmaskedCardVerbatim(card: Card)
    requires card.title.Some? && !Masked(card.title.value)
    requires card.company.Some? && !Masked(card.company.value)
    requires card.location.Some? && card.time.Some?
    requires card.anchor.Some? && card.anchor.value.href.Some?
    ensures ToListing(card) == Listing(card.title.value, card.company.value, card.location.value,
                                       card.time.value, card.anchor.value.href.value)
  {
  }

  /** A masked title or company gives its placeholder, whatever else the card
      holds. */
  lemma MaskedFieldsHidden(card: Card)
    ensures card.title.Some? && Masked(card.title.value) ==> ToListing(card).title == HiddenTitle
    ensures card.company.Some? && Masked(card.company.value) ==> ToListing(card).company == HiddenCompany
  {
  }

  /** The five extractions are independent: each field of the listing depends
      on one element of the card only, so a missing element costs only its own
      field. */
  lemma FieldsIndependent(c1: Card, c2: Card)
    ensures c1.title == c2.title ==> ToListing(c1).title == ToListing(c2).title
    ensures c1.company == c2.company ==> ToListing(c1).company == ToListing(c2).company
    ensures c1.location == c2.location ==> ToListing(c1).location == ToListing(c2).location
    ensures c1.time == c2.time ==> ToListing(c1).posted == ToListing(c2).posted
    ensures c1.anchor == c2.anchor ==> ToListing(c1).link == ToListing(c2).link
  {
  }

  /** A card whose `h3` is missing but whose other four elements are present
      gets "No Title" and the other four fields from its elements. */
  lemma MissingTitleOnly(card: Card)
    requires card.title.None?
    requires card.company.Some? && !Masked(card.company.value)
    requires card.location.Some? && card.time.Some?
    requires card.anchor.Some? && card.anchor.value.href.Some?
    ensures ToListing(card) == Listing(NoTitle, card.company.value, card.location.value,
                                       card.time.value, card.anchor.value.href.value)
  {
  }

  /** The listings of a page: one per card among the first ten, in document
      order, never re-sorted. */
  function ListingsOf(cards: seq<Card>): (listings: seq<Listing>)
    ensures |listings| == if |cards| < MaxListings then |cards| else MaxListings
    ensures forall i :: 0 <= i < |listings| ==> listings[i] == ToListing(cards[i])
  {
    ListingsFrom(cards, MaxListings)
  }

  /** Putting `f` of the first element before `f` of the following ones maps
      the elements in place. */
  lemma MapCons<A, B>(xs: seq<A>, f: A -> B, rest: seq<B>)
    requires |xs| > 0 && |rest| < |xs|
    requires forall i :: 0 <= i < |rest| ==> rest[i] == f(xs[1..][i])
    ensures forall i :: 0 <= i < |rest| + 1 ==> ([f(xs[0])] + rest)[i] == f(xs[i])
  {
    forall i | 0 < i < |rest| + 1
      ensures ([f(xs[0])] + rest)[i] == f(xs[i])
    {
      assert xs[1..][i - 1] == xs[i];
    }
  }

  /** The listings of at most `room` leading cards. */
  function ListingsFrom(cards: seq<Card>, room: nat): (listings: seq<Listing>)
    ensures |listings| == if |cards| < room then |cards| else room
    ensures forall i :: 0 <= i < |listings| ==> listings[i] == ToListing(cards[i])
    decreases room
  {
    if room == 0 || |cards| == 0 then []
    else
      var rest := ListingsFrom(cards[1..], room - 1);
      MapCons(cards, ToListing, rest);
      [ToListing(cards[0])] + rest
  }
}

=== FILE: outcomes.dfy ===
/** Optional values and results with an error side, used for Python's `None`
    and for the exceptions the scraper lets escape or catches. */
module Outcomes {

  datatype Option<+T> = None | Some(value: T) {

    /** The carried value, or `default` when there is none. */
    function GetOr(default: T): T {
      match this
      case Some(v) => v
      case None => default
    }
  }

  datatype Result<+R, +E> = Ok(value: R) | Err(error: E) {

    predicate IsFailure() {
      Err?
    }

    function PropagateFailure<U>(): Result<U, E>
      requires Err?
    {
      Err(error)
    }

    function Extract(): R
      requires Ok?
    {
      value
    }
  }

  /** Applies `f` to each element in turn and stops at the first error, as a
      loop does when an exception escapes it: every result when all succeed,
      otherwise the error of the first element that fails. */
  function Collect<A, B, E>(xs: seq<A>, f: A -> Result<B, E>): (r: Result<seq<B>, E>)
    ensures r.Ok? <==> forall i :: 0 <= i < |xs| ==> f(xs[i]).Ok?
    ensures r.Ok? ==> |r.value| == |xs| && forall i :: 0 <= i < |xs| ==> f(xs[i]) == Ok(r.value[i])
    ensures r.Err? ==> exists i :: 0 <= i < |xs| && f(xs[i]) == Err(r.error) && forall j :: 0 <= j < i ==> f(xs[j]).Ok?
    decreases |xs|
  {
    if |xs| == 0 then Ok([])
    else
      match f(xs[0])
      case Err(e) =>
        assert f(xs[0]) == Err(e);
        Err(e)
      case Ok(first) =>
        match Collect(xs[1..], f)
        case Err(e) =>
          LaterErrorIsFirst(xs, f, e);
          Err(e)
        case Ok(rest) =>
          assert forall i :: 0 < i < |xs| ==> xs[i] == xs[1..][i - 1];
          Ok([first] + rest)
  }

  lemma LaterErrorIsFirst<A, B, E>(xs: seq<A>, f: A -> Result<B, E>, e: E)
    requires |xs| > 0 && f(xs[0]).Ok?
    requires exists i :: 0 <= i < |xs| - 1 && f(xs[1..][i]) == Err(e) && forall j :: 0 <= j < i ==> f(xs[1..][j]).Ok?
    ensures exists i :: 0 <= i < |xs| && f(xs[i]) == Err(e) && forall j :: 0 <= j < i ==> f(xs[j]).Ok?
  {
    var i :| 0 <= i < |xs| - 1 && f(xs[1..][i]) == Err(e) && forall j :: 0 <= j < i ==> f(xs[1..][j]).Ok?;
    assert xs[1..][i] == xs[i + 1];
    forall j | 0 <= j < i + 1
      ensures f(xs[j]).Ok?
    {
      if j > 0 {
        assert xs[j] == xs[1..][j - 1];
      }
    }
  }
}

=== FILE: people.dfy ===
/** The people search of utils/job_scraper.py (`fetch_people`): for every term
    and each of the six experience levels, one request to the people-search
    URL, and up to ten profiles read from the result cards when the status is
    200. Unlike the job search nothing is caught: a failed request, or a card
    whose first `<a>` has no `href`, ends the whole search with an error. */
module People {
  import opened Outcomes
  import opened Strings
  import opened Fetching
  import opened Queries
  import Listings

  /** One result card: the stripped texts of its name, position and location
      elements, each absent when the element is missing, and its first `<a>`. */
  datatype PersonCard = PersonCard(
    name: Option<string>,
    position: Option<string>,
    location: Option<string>,
    anchor: Option<Listings.Anchor>)

  datatype Profile = Profile(name: string, position: string, location: string, profileLink: string)

  /** The profiles found for one experience level, with the URL searched. */
  datatype PeopleEntry = PeopleEntry(experienceLevel: string, profiles: seq<Profile>, searchLink: string)

  /** The six entries of one search term. */
  datatype PeopleResult = PeopleResult(jobTitle: string, people: seq<PeopleEntry>)

  /** Why the search as a whole stops: the request for `url` raised, or a
      card's `<a>` had no `href`, so that `fetch_people` raised `KeyError`. */
  datatype SearchError = RequestFailed(url: string, cause: RequestError) | MissingHref

  type PeopleFetch = string -> Result<Response<seq<PersonCard>>, RequestError>

  const MaxProfiles := 10
  const NoName := "No Name"
  const NoPosition := "No Position"
  const NoLocation := "No Location"
  const NoProfileLink := "No Profile Link"
  const LinkedInDomain := "linkedin.com"

  /** The text mentions LinkedIn's domain somewhere. */
  ghost predicate MentionsLinkedIn(s: string) {
    exists i :: OccursAt(s, LinkedInDomain, i)
  }

  /** A profile link made absolute: a link that does not mention LinkedIn's
      domain is taken as a path on it and gets the origin in front. */
  function AbsoluteLink(link: string): (r: string)
    ensures r == link <==> MentionsLinkedIn(link)
    ensures !MentionsLinkedIn(link) ==> r == LinkedInOrigin + link
    ensures MentionsLinkedIn(r)
  {
    ContainsMeansOccurs(link, LinkedInDomain);
    if Contains(link, LinkedInDomain) then link
    else
      OriginMentionsLinkedIn(link);
      LinkedInOrigin + link
  }

  lemma OriginPieces()
    ensures LinkedInOrigin == "https://www." + LinkedInDomain
  {
  }

  /** Anything placed after the origin mentions the domain. */
  lemma OriginMentionsLinkedIn(link: string)
    ensures MentionsLinkedIn(LinkedInOrigin + link)
  {
    OriginPieces();
    var front := "https://www.";
    var s := LinkedInOrigin + link;
    assert s == front + LinkedInDomain + link;
    assert s[|front|..|front| + |LinkedInDomain|] == LinkedInDomain;
    assert OccursAt(s, LinkedInDomain, |front|);
  }

  /** Making a link absolute twice changes nothing more. */
  lemma AbsoluteLinkIdempotent(link: string)
    ensures AbsoluteLink(AbsoluteLink(link)) == AbsoluteLink(link)
  {
    assert MentionsLinkedIn(AbsoluteLink(link));
  }

  /** The link read from a card: the first `<a>`'s `href`, "No Profile Link"
      when there is no `<a>`, an error when the `<a>` has no `href`. */
  function RawLink(anchor: Option<Listings.Anchor>): (r: Result<string, SearchError>)
    ensures r.Err? <==> anchor.Some? && anchor.value.href.None?
    ensures r.Err? ==> r.error == MissingHref
    ensures anchor.None? ==> r == Ok(NoProfileLink)
    ensures anchor.Some? && anchor.value.href.Some? ==> r == Ok(anchor.value.href.value)
  {
    match anchor
    case None => Ok(NoProfileLink)
    case Some(a) => if a.href.None? then Err(MissingHref) else Ok(a.href.value)
  }

  /** The card's first `<a>` exists but carries no `href`. */
  predicate HrefMissing(card: PersonCard) {
    card.anchor.Some? && card.anchor.value.href.None?
  }

  /** One card as a profile. */
  function ToProfile(card: PersonCard): (r: Result<Profile, SearchError>)
    ensures r.Err? <==> HrefMissing(card)
    ensures r.Ok? ==> r.value.name == card.name.GetOr(NoName)
    ensures r.Ok? ==> r.value.position == card.position.GetOr(NoPosition)
    ensures r.Ok? ==> r.value.location == card.location.GetOr(NoLocation)
    ensures r.Ok? ==> r.value.profileLink == AbsoluteLink(RawLink(card.anchor).value)
    ensures r.Ok? ==> MentionsLinkedIn(r.value.profileLink)
  {
    var link :- RawLink(card.anchor);
    Ok(Profile(card.name.GetOr(NoName), card.position.GetOr(NoPosition),
               card.location.GetOr(NoLocation), AbsoluteLink(link)))
  }

  /** A card's `href` becomes its profile link: kept when it mentions
      "linkedin.com", otherwise put behind the origin, as for a relative
      `/in/...` path. */
  lemma ProfileLinkFromHref(card: PersonCard)
    requires card.anchor.Some? && card.anchor.value.href.Some?
    ensures ToProfile(card).Ok?
    ensures MentionsLinkedIn(card.anchor.value.href.value) ==>
      ToProfile(card).value.profileLink == card.anchor.value.href.value
    ensures !MentionsLinkedIn(card.anchor.value.href.value) ==>
      ToProfile(card).value.profileLink == LinkedInOrigin + card.anchor.value.href.value
  {
  }

  /** A card without any `<a>` still gives a profile, whose link is the
      placeholder behind the origin: the domain test sees no "linkedin.com"
      in "No Profile Link". */
  lemma NoAnchorLink(card: PersonCard)
    requires card.anchor.None?
    ensures ToProfile(card).Ok?
    ensures ToProfile(card).value.profileLink == LinkedInOrigin + NoProfileLink
  {
    PlaceholderNotLinkedIn();
  }

  lemma PlaceholderNotLinkedIn()
    ensures !MentionsLinkedIn(NoProfileLink)
  {
    assert '.' !in NoProfileLink;
    MentionHasDot(NoProfileLink);
  }

  /** The domain has a dot, so a text mentioning it has one too. */
  lemma MentionHasDot(s: string)
    ensures MentionsLinkedIn(s) ==> '.' in s
  {
    if MentionsLinkedIn(s) {
      var i :| OccursAt(s, LinkedInDomain, i);
      assert s[i..i + |LinkedInDomain|][8] == s[i + 8];
    }
  }

  /** The profiles of at most `room` leading cards; the first card with a
      missing `href` stops everything. */
  function ProfilesFrom(cards: seq<PersonCard>, room: nat): (r: Result<seq<Profile>, SearchError>)
    ensures r.Err? <==> exists i :: 0 <= i < |cards| && i < room && HrefMissing(cards[i])
    ensures r.Ok? ==> |r.value| == if |cards| < room then |cards| else room
    ensures r.Ok? ==> forall i :: 0 <= i < |r.value| ==> ToProfile(cards[i]) == Ok(r.value[i])
    decreases room
  {
    if room == 0 || |cards| == 0 then Ok([])
    else
      var p :- ToProfile(cards[0]);
      var rest :- ProfilesFrom(cards[1..], room - 1);
      OkCons(cards, ToProfile, p, rest);
      Ok([p] + rest)
  }

  /** Putting the first element's value before the following ones' values
      keeps every value at its element's index. */
  lemma OkCons<A, B, E>(xs: seq<A>, f: A -> Result<B, E>, first: B, rest: seq<B>)
    requires |xs| > 0 && |rest| < |xs| && f(xs[0]) == Ok(first)
    requires forall i :: 0 <= i < |rest| ==> f(xs[1..][i]) == Ok(rest[i])
    ensures forall i :: 0 <= i < |rest| + 1 ==> f(xs[i]) == Ok(([first] + rest)[i])
  {
    forall i | 0 < i < |rest| + 1
      ensures f(xs[i]) == Ok(([first] + rest)[i])
    {
      assert xs[1..][i - 1] == xs[i];
    }
  }

  /** The profiles of a page: one per card among the first ten, in order, or
      an error when one of those ten has an `<a>` without `href`. */
  function Profiles(cards: seq<PersonCard>): (r: Result<seq<Profile>, SearchError>)
    ensures r.Err? <==> exists i :: 0 <= i < |cards| && i < MaxProfiles && HrefMissing(cards[i])
    ensures r.Ok? ==> |r.value| == if |cards| < MaxProfiles then |cards| else MaxProfiles
    ensures r.Ok? ==> forall i :: 0 <= i < |r.value| ==> ToProfile(cards[i]) == Ok(r.value[i])
  {
    ProfilesFrom(cards, MaxProfiles)
  }

  /** The request for `url` succeeds, and when its status is 200, none of the
      first ten cards lacks an `href`. */
  predicate EntrySucceeds(fetch: PeopleFetch, url: string) {
    && fetch(url).Ok?
    && (fetch(url).value.status == 200 ==>
          forall i :: 0 <= i < |fetch(url).value.page| && i < MaxProfiles ==> !HrefMissing(fetch(url).value.page[i]))
  }

  /** The entry for one term and one level. Only status 200 is read; any other
      status, including an error status, records the level with no profiles. */
  function PeopleEntryFor(term: string, level: ExperienceLevel, fetch: PeopleFetch): (r: Result<PeopleEntry, SearchError>)
    ensures r.Ok? <==> EntrySucceeds(fetch, PeopleUrl(term, level))
    ensures fetch(PeopleUrl(term, level)).Err? ==> r == Err(RequestFailed(PeopleUrl(term, level), fetch(PeopleUrl(term, level)).error))
    ensures r.Ok? ==> r.value.experienceLevel == level.Label() && r.value.searchLink == PeopleUrl(term, level)
    ensures r.Ok? ==> |r.value.profiles| <= MaxProfiles
    ensures r.Ok? && fetch(PeopleUrl(term, level)).value.status != 200 ==> r.value.profiles == []
    ensures r.Ok? && fetch(PeopleUrl(term, level)).value.status == 200 ==>
      r.value.profiles == Profiles(fetch(PeopleUrl(term, level)).value.page).value
  {
    var url := PeopleUrl(term, level);
    match fetch(url)
    case Err(cause) => Err(RequestFailed(url, cause))
    case Ok(response) =>
      if response.status == 200 then
        var profiles :- Profiles(response.page);
        Ok(PeopleEntry(level.Label(), profiles, url))
      else Ok(PeopleEntry(level.Label(), [], url))
  }

  /** The entries of one term over the given levels, in order. */
  function EntriesFor(term: string, levels: seq<ExperienceLevel>, fetch: PeopleFetch): (r: Result<seq<PeopleEntry>, SearchError>)
    ensures r.Ok? <==> forall j :: 0 <= j < |levels| ==> EntrySucceeds(fetch, PeopleUrl(term, levels[j]))
    ensures r.Ok? ==> |r.value| == |levels|
    ensures r.Ok? ==> forall j :: 0 <= j < |levels| ==> PeopleEntryFor(term, levels[j], fetch) == Ok(r.value[j])
    decreases |levels|
  {
    if |levels| == 0 then Ok([])
    else
      var entry :- PeopleEntryFor(term, levels[0], fetch);
      var rest :- EntriesFor(term, levels[1..], fetch);
      Ok([entry] + rest)
  }

  /** The result of one term: its six entries, in level order. */
  function TermResult(term: string, fetch: PeopleFetch): (r: Result<PeopleResult, SearchError>)
    ensures r.Ok? <==> EntriesFor(term, ExperienceLevels, fetch).Ok?
    ensures r.Ok? ==> r.value.jobTitle == term && EntriesFor(term, ExperienceLevels, fetch) == Ok(r.value.people)
  {
    var people :- EntriesFor(term, ExperienceLevels, fetch);
    Ok(PeopleResult(term, people))
  }

  /** The people search over all terms: one result per term, in order, or the
      error of the first term that fails. */
  function FetchPeople(terms: seq<string>, fetch: PeopleFetch): (r: Result<seq<PeopleResult>, SearchError>)
    ensures r.Ok? <==> forall i :: 0 <= i < |terms| ==> TermResult(terms[i], fetch).Ok?
    ensures r.Ok? ==> |r.value| == |terms|
    ensures r.Ok? ==> forall i :: 0 <= i < |terms| ==> TermResult(terms[i], fetch) == Ok(r.value[i])
    ensures r.Err? ==> exists i :: (0 <= i < |terms| && TermResult(terms[i], fetch) == Err(r.error)
      && forall j :: 0 <= j < i ==> TermResult(terms[j], fetch).Ok?)
  {
    Collect(terms, t => TermResult(t, fetch))
  }

  /** The search succeeds exactly when every one of its requests does: each
      request for every term and level comes back, and none of the first ten
      cards of a 200 page has an `<a>` without `href`. */
  lemma FetchPeopleSucceeds(terms: seq<string>, fetch: PeopleFetch)
    ensures FetchPeople(terms, fetch).Ok? <==>
      forall i, j :: 0 <= i < |terms| && 0 <= j < |ExperienceLevels| ==>
        EntrySucceeds(fetch, PeopleUrl(terms[i], ExperienceLevels[j]))
  {
  }

  /** A successful search has, for every term, the six levels in order, each
      with its label, its search URL and at most ten profiles. */
  lemma FetchPeopleShape(terms: seq<string>, fetch: PeopleFetch, i: int, j: int)
    ensures FetchPeople(terms, fetch).Ok? && 0 <= i < |terms| && 0 <= j < 6 ==>
      var entries := FetchPeople(terms, fetch).value[i].people;
      && |entries| == 6
      && entries[j].experienceLevel == ExperienceLevels[j].Label()
      && entries[j].searchLink == PeopleUrl(terms[i], ExperienceLevels[j])
      && |entries[j].profiles| <= MaxProfiles
  {
    if FetchPeople(terms, fetch).Ok? && 0 <= i < |terms| && 0 <= j < 6 {
      var entries := FetchPeople(terms, fetch).value[i].people;
      assert TermResult(terms[i], fetch) == Ok(FetchPeople(terms, fetch).value[i]);
      assert EntriesFor(terms[i], ExperienceLevels, fetch) == Ok(entries);
      assert PeopleEntryFor(terms[i], ExperienceLevels[j], fetch) == Ok(entries[j]);
    }
  }
}

=== FILE: queries.dfy ===
/** The search URLs the LinkedIn scraper requests (utils/job_scraper.py), and
    a reading of a URL's query string into its `name=value` parameters, used
    to state what those URLs carry. */
module Queries {
  import opened Outcomes
  import opened Strings
  import opened UrlQuote

  /** The site both searches are made on. The addresses below are written
      as concatenations of this origin and their own pieces; they are the
      same strings the scraper writes out whole. */
  const LinkedInOrigin := "https://www.linkedin.com"
  const JobsPath := LinkedInOrigin + "/jobs/search/"
  const PeoplePath := LinkedInOrigin + "/search/results/people/"
  const BaseJobsUrl := JobsPath + "?keywords="
  const BasePeopleUrl := PeoplePath + "?keywords="

  /** LinkedIn's geographic identifier for India. */
  const IndiaGeoId := "102713980"
  const GeoSegment := "&geoId=" + IndiaGeoId

  /** `fetch_jobs` restricts the search to India; `fetch_jobs_OutsideIndia`
      applies no geographic restriction. */
  datatype Region = India | Worldwide

  /** Python truthiness of the optional `Exp_Level` argument: `None` and the
      empty string are false. */
  predicate Truthy(level: Option<string>) {
    level.Some? && level.value != ""
  }

  /** `&exp=<quoted level>`, appended only for a truthy level. The quoted
      level decodes back to the level, and the suffix never holds a space or
      a `#`. */
  function ExperienceSuffix(level: Option<string>): (r: string)
    ensures r == "" <==> !Truthy(level)
    ensures Truthy(level) ==> |r| >= 5 && r[..5] == "&exp=" && Dequote(r[5..]) == Some(level.value)
    ensures ' ' !in r && '#' !in r
  {
    if Truthy(level) then
      DequoteQuotePlus(level.value);
      QuotedHasNoDelimiter(level.value);
      var q := QuotePlus(level.value);
      assert ("&exp=" + q)[5..] == q;
      "&exp=" + q
    else ""
  }

  /** The job-search URL for one term, as `fetch_jobs` (India) and
      `fetch_jobs_OutsideIndia` (Worldwide) assemble it. It starts with the
      search address, and since the term is quoted it has no space and no
      fragment: no part of the URL text is cut off as a fragment. */
  function JobsUrl(term: string, level: Option<string>, region: Region): (r: string)
    ensures |r| >= |BaseJobsUrl| && r[..|BaseJobsUrl|] == BaseJobsUrl
    ensures ' ' !in r && '#' !in r
  {
    QuotedHasNoDelimiter(term);
    BasesClean();
    GeographyClean();
    var geography := if region == India then GeoSegment else "";
    AvoidsFour(BaseJobsUrl, QuotePlus(term), geography, ExperienceSuffix(level), ' ');
    AvoidsFour(BaseJobsUrl, QuotePlus(term), geography, ExperienceSuffix(level), '#');
    StartsWith(BaseJobsUrl, QuotePlus(term), geography, ExperienceSuffix(level));
    BaseJobsUrl + QuotePlus(term) + geography + ExperienceSuffix(level)
  }

  /** The experience filter of the people search, in the insertion order of
      `fetch_people`'s dictionary. */
  datatype ExperienceLevel = Internship | EntryLevel | Associate | MidSenior | Director | Executive {

    function Label(): string {
      match this
      case Internship => "Internship"
      case EntryLevel => "Entry level"
      case Associate => "Associate"
      case MidSenior => "Mid-Senior level"
      case Director => "Director"
      case Executive => "Executive"
    }

    function Code(): int {
      match this
      case Internship => 1
      case EntryLevel => 2
      case Associate => 3
      case MidSenior => 4
      case Director => 5
      case Executive => 6
    }
  }

  const ExperienceLevels: seq<ExperienceLevel> :=
    [Internship, EntryLevel, Associate, MidSenior, Director, Executive]

  /** The six levels are visited in order, with codes 1 to 6. */
  lemma ExperienceLevelsInOrder()
    ensures |ExperienceLevels| == 6
    ensures forall j :: 0 <= j < 6 ==> ExperienceLevels[j].Code() == j + 1
    ensures forall j, k :: 0 <= j < k < 6 ==> ExperienceLevels[j].Label() != ExperienceLevels[k].Label()
  {
  }

  /** `str(code)` for a one-digit code. */
  function Digit(d: int): string
    requires 0 <= d <= 9
  {
    [('0' as int + d) as char]
  }

  /** Python's `s.replace(' ', '%20')`. */
  function EscapeSpaces(s: string): (r: string)
    ensures ' ' !in r
    decreases |s|
  {
    if |s| == 0 then ""
    else (if s[0] == ' ' then "%20" else [s[0]]) + EscapeSpaces(s[1..])
  }

  /** Reads every `%20` back as a space. */
  function UnescapeSpaces(r: string): string
    decreases |r|
  {
    if |r| == 0 then ""
    else if |r| >= 3 && r[..3] == "%20" then " " + UnescapeSpaces(r[3..])
    else [r[0]] + UnescapeSpaces(r[1..])
  }

  /** The people-search URL for one term and one experience level. It has no
      space; it has a fragment exactly when the term holds a `#`, which is
      not escaped. */
  function PeopleUrl(term: string, level: ExperienceLevel): (r: string)
    ensures ' ' !in r
    ensures '#' in r <==> '#' in term
  {
    EscapeSpacesKeepsOthers(term, '#');
    BasesClean();
    PeopleTailClean(level.Code());
    var d := Digit(level.Code());
    AvoidsFour(BasePeopleUrl, EscapeSpaces(term), "&f_E=" + d, "&origin=SWITCH_SEARCH_VERTICAL&sid=5GE", ' ');
    HoldsIffMiddle(BasePeopleUrl, EscapeSpaces(term), "&f_E=" + d, "&origin=SWITCH_SEARCH_VERTICAL&sid=5GE", '#');
    BasePeopleUrl + EscapeSpaces(term) + ("&f_E=" + d) + "&origin=SWITCH_SEARCH_VERTICAL&sid=5GE"
  }

  // ---------------------------------------------------------------------
  // Reading a URL back into its parts.

  /** The URL text without its fragment: everything before the first `#`,
      where the fragment starts (section 3.5 of RFC 3986). An HTTP client
      leaves the fragment out of the request; the further re-quoting an HTTP
      client may apply to this text is not modelled. */
  function SentPart(url: string): string {
    Before(url, '#')
  }

  /** The part of a URL before its query string. */
  function UrlPath(url: string): string {
    Before(SentPart(url), '?')
  }

  /** One `name=value` piece of a query string, cut at its first `=`. */
  function ReadParameter(piece: string): (string, string) {
    (Before(piece, '='), After(piece, '='))
  }

  function ReadParameters(pieces: seq<string>): (ps: seq<(string, string)>)
    ensures |ps| == |pieces|
    decreases |pieces|
  {
    if |pieces| == 0 then [] else [ReadParameter(pieces[0])] + ReadParameters(pieces[1..])
  }

  /** The parameters of a URL's query string, in order; the query ends where
      the fragment begins. */
  function QueryParameters(url: string): seq<(string, string)> {
    ReadParameters(Split(After(SentPart(url), '?'), '&'))
  }

  /** Writes parameters as a query string. */
  function RenderQuery(ps: seq<(string, string)>): string
    requires |ps| >= 1
    decreases |ps|
  {
    var piece := ps[0].0 + "=" + ps[0].1;
    if |ps| == 1 then piece else piece + "&" + RenderQuery(ps[1..])
  }

  /** A parameter list that can be written and read back unchanged: names
      without `=`, `&` or `#`, values without `&` or `#`. */
  predicate WellFormedParameters(ps: seq<(string, string)>) {
    && |ps| >= 1
    && forall k :: 0 <= k < |ps| ==> CleanParameter(ps[k])
  }

  predicate CleanParameter(p: (string, string)) {
    '=' !in p.0 && '&' !in p.0 && '&' !in p.1 && '#' !in p.0 && '#' !in p.1
  }

  /** A character that is no delimiter and occurs in no name or value does
      not occur in the written query. */
  lemma {:induction false} RenderQueryAvoids(ps: seq<(string, string)>, c: char)
    requires |ps| >= 1 && c != '=' && c != '&'
    requires forall k :: 0 <= k < |ps| ==> c !in ps[k].0 && c !in ps[k].1
    ensures c !in RenderQuery(ps)
    decreases |ps|
  {
    if |ps| > 1 {
      RenderQueryAvoids(ps[1..], c);
    }
  }

  lemma {:induction false} ReadRenderedParameters(ps: seq<(string, string)>)
    requires WellFormedParameters(ps)
    ensures ReadParameters(Split(RenderQuery(ps), '&')) == ps
    decreases |ps|
  {
    if |ps| == 1 {
      var piece := ps[0].0 + "=" + ps[0].1;
      CutAtFirst(ps[0].0, '=', ps[0].1);
      assert '&' !in piece;
      SplitWhole(piece, '&');
    } else {
      assert WellFormedParameters(ps[1..]);
      ReadRenderedParameters(ps[1..]);
      ReadRenderedStep(ps);
    }
  }

  /** One more parameter in front of a list that reads back. */
  lemma ReadRenderedStep(ps: seq<(string, string)>)
    requires |ps| > 1 && WellFormedParameters(ps)
    requires ReadParameters(Split(RenderQuery(ps[1..]), '&')) == ps[1..]
    ensures ReadParameters(Split(RenderQuery(ps), '&')) == ps
  {
    var piece := ps[0].0 + "=" + ps[0].1;
    CutAtFirst(ps[0].0, '=', ps[0].1);
    assert '&' !in piece;
    SplitFirst(piece, '&', RenderQuery(ps[1..]));
    assert ps == [ps[0]] + ps[1..];
  }

  /** Reading a written query string gives back the path and the parameters. */
  lemma ReadRenderedQuery(path: string, ps: seq<(string, string)>)
    requires '?' !in path && '#' !in path
    requires WellFormedParameters(ps)
    ensures UrlPath(path + "?" + RenderQuery(ps)) == path
    ensures QueryParameters(path + "?" + RenderQuery(ps)) == ps
  {
    RenderQueryAvoids(ps, '#');
    BeforeAbsent(path + "?" + RenderQuery(ps), '#');
    CutAtFirst(path, '?', RenderQuery(ps));
    ReadRenderedParameters(ps);
  }

  // ---------------------------------------------------------------------
  // What the job-search URLs carry.

  /** The parameters a job-search URL is meant to carry. */
  function JobsParameters(term: string, level: Option<string>, region: Region): seq<(string, string)> {
    [("keywords", QuotePlus(term))]
      + (if region == India then [("geoId", IndiaGeoId)] else [])
      + (if Truthy(level) then [("exp", QuotePlus(level.value))] else [])
  }

  lemma QuotedHasNoDelimiter(s: string)
    ensures '&' !in QuotePlus(s) && '=' !in QuotePlus(s) && '?' !in QuotePlus(s) && '#' !in QuotePlus(s)
    ensures ' ' !in QuotePlus(s)
  {
    var r := QuotePlus(s);
    forall i | 0 <= i < |r|
      ensures r[i] != '&' && r[i] != '=' && r[i] != '?' && r[i] != '#' && r[i] != ' '
    {
      assert QuotedChar(r[i]);
    }
  }


  lemma RenderedIndiaWithLevel(term: string, level: Option<string>)
    requires Truthy(level)
    ensures JobsUrl(term, level, India) == JobsPath + "?" + RenderQuery(JobsParameters(term, level, India))
  {
    var q := QuotePlus(term);
    var x := QuotePlus(level.value);
    var ps := JobsParameters(term, level, India);
    assert JobsUrl(term, level, India) == BaseJobsUrl + q + GeoSegment + ExperienceSuffix(level);
    assert ps == [("keywords", q), ("geoId", IndiaGeoId), ("exp", x)];
    SuffixPieces(level);
    JobsLiteral();
    GeoLiteral();
    RenderThree(("keywords", q), ("geoId", IndiaGeoId), ("exp", x));
    GlueThree(BaseJobsUrl, JobsPath, "keywords", q, GeoSegment, "geoId", IndiaGeoId,
              ExperienceSuffix(level), "exp", x);
  }

  lemma RenderedIndia(term: string, level: Option<string>)
    requires !Truthy(level)
    ensures JobsUrl(term, level, India) == JobsPath + "?" + RenderQuery(JobsParameters(term, level, India))
  {
    var q := QuotePlus(term);
    var ps := JobsParameters(term, level, India);
    assert JobsUrl(term, level, India) == BaseJobsUrl + q + GeoSegment;
    assert ps == [("keywords", q), ("geoId", IndiaGeoId)];
    JobsLiteral();
    GeoLiteral();
    RenderTwo(("keywords", q), ("geoId", IndiaGeoId));
    GlueTwo(BaseJobsUrl, JobsPath, "keywords", q, GeoSegment, "geoId", IndiaGeoId);
  }

  lemma RenderedWorldwideWithLevel(term: string, level: Option<string>)
    requires Truthy(level)
    ensures JobsUrl(term, level, Worldwide) == JobsPath + "?" + RenderQuery(JobsParameters(term, level, Worldwide))
  {
    var q := QuotePlus(term);
    var x := QuotePlus(level.value);
    var ps := JobsParameters(term, level, Worldwide);
    assert JobsUrl(term, level, Worldwide) == BaseJobsUrl + q + ExperienceSuffix(level);
    assert ps == [("keywords", q), ("exp", x)];
    SuffixPieces(level);
    JobsLiteral();
    RenderTwo(("keywords", q), ("exp", x));
    GlueTwo(BaseJobsUrl, JobsPath, "keywords", q, ExperienceSuffix(level), "exp", x);
  }

  lemma RenderedWorldwide(term: string, level: Option<string>)
    requires !Truthy(level)
    ensures JobsUrl(term, level, Worldwide) == JobsPath + "?" + RenderQuery(JobsParameters(term, level, Worldwide))
  {
    var q := QuotePlus(term);
    assert JobsUrl(term, level, Worldwide) == BaseJobsUrl + q;
    assert JobsParameters(term, level, Worldwide) == [("keywords", q)];
    JobsLiteral();
    GlueOne(BaseJobsUrl, JobsPath, "keywords", q);
  }

  /** The URL the scraper concatenates is the written parameter list. */
  lemma JobsUrlIsRendered(term: string, level: Option<string>, region: Region)
    ensures JobsUrl(term, level, region) == JobsPath + "?" + RenderQuery(JobsParameters(term, level, region))
  {
    match region
    case India =>
      if Truthy(level) { RenderedIndiaWithLevel(term, level); } else { RenderedIndia(term, level); }
    case Worldwide =>
      if Truthy(level) { RenderedWorldwideWithLevel(term, level); } else { RenderedWorldwide(term, level); }
  }

  lemma JobsParametersWellFormed(term: string, level: Option<string>, region: Region)
    ensures WellFormedParameters(JobsParameters(term, level, region))
  {
    var ps := JobsParameters(term, level, region);
    QuotedHasNoDelimiter(term);
    KeywordsName();
    GeoParameterClean();
    var head := [("keywords", QuotePlus(term))];
    var geo: seq<(string, string)> := if region == India then [("geoId", IndiaGeoId)] else [];
    var exp: seq<(string, string)> := if Truthy(level) then [("exp", QuotePlus(level.value))] else [];
    if Truthy(level) {
      QuotedHasNoDelimiter(level.value);
      ExpName();
    }
    assert ps == head + geo + exp;
    CleanThree(head, geo, exp);
  }

  lemma CleanThree(a: seq<(string, string)>, b: seq<(string, string)>, c: seq<(string, string)>)
    requires |a| >= 1
    requires forall k :: 0 <= k < |a| ==> CleanParameter(a[k])
    requires forall k :: 0 <= k < |b| ==> CleanParameter(b[k])
    requires forall k :: 0 <= k < |c| ==> CleanParameter(c[k])
    ensures WellFormedParameters(a + b + c)
  {
    var ps := a + b + c;
    forall k | 0 <= k < |ps|
      ensures CleanParameter(ps[k])
    {
      if k < |a| {
        assert ps[k] == a[k];
      } else if k < |a| + |b| {
        assert ps[k] == b[k - |a|];
      } else {
        assert ps[k] == c[k - |a| - |b|];
      }
    }
  }

  lemma PathsHaveNoQuery()
    ensures '?' !in JobsPath && '?' !in PeoplePath
    ensures '#' !in JobsPath && '#' !in PeoplePath
    ensures ' ' !in JobsPath && ' ' !in PeoplePath
  {
    OriginClean();
    JobsRouteClean();
    PeopleRouteClean();
  }

  /** A job-search URL is the search path with the keywords, then the India
      geography when asked for, then the experience level when it is truthy;
      the keywords and the level read back to exactly the strings given. */
  lemma JobsUrlParameters(term: string, level: Option<string>, region: Region)
    ensures UrlPath(JobsUrl(term, level, region)) == JobsPath
    ensures QueryParameters(JobsUrl(term, level, region)) == JobsParameters(term, level, region)
    ensures Dequote(QueryParameters(JobsUrl(term, level, region))[0].1) == Some(term)
    ensures Truthy(level) ==>
      var ps := QueryParameters(JobsUrl(term, level, region));
      ps[|ps| - 1].0 == "exp" && Dequote(ps[|ps| - 1].1) == Some(level.value)
  {
    var ps := JobsParameters(term, level, region);
    JobsParametersWellFormed(term, level, region);
    PathsHaveNoQuery();
    JobsUrlIsRendered(term, level, region);
    ReadRenderedQuery(JobsPath, ps);
    DequoteQuotePlus(term);
    if Truthy(level) {
      DequoteQuotePlus(level.value);
    }
  }

  /** The geography parameter is present exactly for the India search, and
      then carries the identifier verbatim. */
  lemma GeographyOnlyForIndia(term: string, level: Option<string>, region: Region)
    ensures var ps := QueryParameters(JobsUrl(term, level, region));
      (exists k :: 0 <= k < |ps| && ps[k].0 == "geoId") <==> region == India
    ensures region == India ==>
      var ps := QueryParameters(JobsUrl(term, level, region));
      |ps| >= 2 && ps[1] == ("geoId", IndiaGeoId)
  {
    JobsUrlParameters(term, level, region);
    var ps := QueryParameters(JobsUrl(term, level, region));
    if region == India {
      assert ps[1].0 == "geoId";
    } else {
      forall k | 0 <= k < |ps|
        ensures ps[k].0 != "geoId"
      {
        assert ps[k].0 in ["keywords", "exp"];
      }
    }
  }

  /** The `exp` parameter is present exactly for a truthy level: `None` and
      the empty string add nothing to the URL. */
  lemma ExpOnlyForTruthyLevel(term: string, level: Option<string>, region: Region)
    ensures var ps := QueryParameters(JobsUrl(term, level, region));
      (exists k :: 0 <= k < |ps| && ps[k].0 == "exp") <==> Truthy(level)
  {
    JobsUrlParameters(term, level, region);
    var ps := QueryParameters(JobsUrl(term, level, region));
    if Truthy(level) {
      assert ps[|ps| - 1].0 == "exp";
    } else {
      forall k | 0 <= k < |ps|
        ensures ps[k].0 != "exp"
      {
        assert ps[k].0 in ["keywords", "geoId"];
      }
    }
  }

  /** `fetch_jobs_OutsideIndia` requests the URL of `fetch_jobs` with the
      `&geoId=102713980` segment taken out, and nothing else changed; so the
      two URLs always differ. */
  lemma WorldwideUrlDropsGeography(term: string, level: Option<string>)
    ensures exists front, back ::
      && JobsUrl(term, level, India) == front + GeoSegment + back
      && JobsUrl(term, level, Worldwide) == front + back
    ensures JobsUrl(term, level, India) != JobsUrl(term, level, Worldwide)
  {
    IndiaPieces(term, level);
    WorldwidePieces(term, level);
    GeoLiteral();
    DropSegment(JobsUrl(term, level, India), JobsUrl(term, level, Worldwide),
                BaseJobsUrl + QuotePlus(term), GeoSegment, ExperienceSuffix(level));
  }

  lemma DropSegment(x: string, y: string, front: string, segment: string, back: string)
    requires x == front + segment + back && y == front + back && |segment| > 0
    ensures exists f, b :: x == f + segment + b && y == f + b
    ensures x != y
  {
    assert |x| > |y|;
  }

  lemma IndiaPieces(term: string, level: Option<string>)
    ensures JobsUrl(term, level, India) == (BaseJobsUrl + QuotePlus(term)) + GeoSegment + ExperienceSuffix(level)
  {
  }

  lemma WorldwidePieces(term: string, level: Option<string>)
    ensures JobsUrl(term, level, Worldwide) == (BaseJobsUrl + QuotePlus(term)) + ExperienceSuffix(level)
  {
    var front := BaseJobsUrl + QuotePlus(term);
    assert front + "" == front;
  }

  // ---------------------------------------------------------------------
  // What the people-search URLs carry.

  /** Undoing the escape recovers the term when the term has no `%` of its
      own. */
  lemma {:induction false} UnescapeEscapedSpaces(s: string)
    requires '%' !in s
    ensures UnescapeSpaces(EscapeSpaces(s)) == s
    decreases |s|
  {
    if |s| > 0 {
      UnescapeEscapedSpaces(s[1..]);
      var rest := EscapeSpaces(s[1..]);
      if s[0] == ' ' {
        assert EscapeSpaces(s) == "%20" + rest;
        assert (EscapeSpaces(s))[3..] == rest;
      } else {
        assert EscapeSpaces(s) == [s[0]] + rest;
        assert (EscapeSpaces(s))[1..] == rest;
      }
      assert [s[0]] + s[1..] == s;
    }
  }

  /** Escaping spaces adds no character other than `%`, `2` and `0`. */
  lemma {:induction false} EscapeSpacesKeepsOthers(s: string, c: char)
    requires c != ' ' && c != '%' && c != '2' && c != '0'
    ensures c in EscapeSpaces(s) <==> c in s
    decreases |s|
  {
    if |s| > 0 {
      EscapeSpacesKeepsOthers(s[1..], c);
      assert s == [s[0]] + s[1..];
    }
  }

  /** The parameters a people-search URL is meant to carry. */
  function PeopleParameters(term: string, level: ExperienceLevel): seq<(string, string)> {
    [("keywords", EscapeSpaces(term)), ("f_E", Digit(level.Code())),
     ("origin", "SWITCH_SEARCH_VERTICAL"), ("sid", "5GE")]
  }

  /** The URL the scraper concatenates is the written parameter list. */
  lemma PeopleUrlIsRendered(term: string, level: ExperienceLevel)
    ensures PeopleUrl(term, level) == PeoplePath + "?" + RenderQuery(PeopleParameters(term, level))
  {
    var e := EscapeSpaces(term);
    var d := Digit(level.Code());
    var tail := "&origin=SWITCH_SEARCH_VERTICAL&sid=5GE";
    assert PeopleUrl(term, level) == BasePeopleUrl + e + "&f_E=" + d + tail;
    PeopleLiteral();
    CodeLiteral();
    PeopleTailLiteral();
    RenderFour(("keywords", e), ("f_E", d), ("origin", "SWITCH_SEARCH_VERTICAL"), ("sid", "5GE"));
    GlueFour(BasePeopleUrl, PeoplePath, "keywords", e, "&f_E=", "f_E", d,
             tail, "origin", "SWITCH_SEARCH_VERTICAL", "sid", "5GE");
  }

  lemma PeopleParametersWellFormed(term: string, level: ExperienceLevel)
    requires '&' !in term && '#' !in term
    ensures WellFormedParameters(PeopleParameters(term, level))
  {
    var ps := PeopleParameters(term, level);
    EscapeSpacesKeepsOthers(term, '&');
    EscapeSpacesKeepsOthers(term, '#');
    KeywordsName();
    CodeParameterClean(level.Code());
    FixedParametersClean();
    CleanThree([ps[0]], [ps[1]], ps[2..]);
    assert ps == [ps[0]] + [ps[1]] + ps[2..];
  }

  /** For a term without `&` or `#`, the people-search URL carries the
      space-escaped term, the experience code and the two fixed parameters,
      in that order, and the keywords read back to the term when it has no
      `%` of its own. */
  lemma PeopleUrlParameters(term: string, level: ExperienceLevel)
    requires '&' !in term && '#' !in term
    ensures UrlPath(PeopleUrl(term, level)) == PeoplePath
    ensures QueryParameters(PeopleUrl(term, level)) ==
      [("keywords", EscapeSpaces(term)), ("f_E", Digit(level.Code())),
       ("origin", "SWITCH_SEARCH_VERTICAL"), ("sid", "5GE")]
    ensures '%' !in term ==> UnescapeSpaces(QueryParameters(PeopleUrl(term, level))[0].1) == term
  {
    PeopleParametersWellFormed(term, level);
    PathsHaveNoQuery();
    PeopleUrlIsRendered(term, level);
    ReadRenderedQuery(PeoplePath, PeopleParameters(term, level));
    if '%' !in term {
      UnescapeEscapedSpaces(term);
    }
  }

  /** A URL whose sent part is `path?query` carries the parameters of `query`. */
  lemma ReadSent(url: string, path: string, query: string)
    requires '?' !in path && SentPart(url) == path + "?" + query
    ensures QueryParameters(url) == ReadParameters(Split(query, '&'))
  {
    CutAtFirst(path, '?', query);
  }

  lemma ReadOnlyPiece(k: string, v: string)
    requires '=' !in k && '&' !in k && '&' !in v
    ensures ReadParameters(Split(k + "=" + v, '&')) == [(k, v)]
  {
    SplitWhole(k + "=" + v, '&');
    CutAtFirst(k, '=', v);
  }

  lemma ReadLeadingPiece(k: string, v: string, rest: string)
    requires '=' !in k && '&' !in k && '&' !in v
    ensures var ps := ReadParameters(Split(k + "=" + v + "&" + rest, '&'));
      |ps| >= 1 && ps[0] == (k, v)
  {
    SplitFirst(k + "=" + v, '&', rest);
    CutAtFirst(k, '=', v);
  }

  /** Where the fragment cuts a string `head + first + "&" + rest` whose head
      has no `#`. */
  lemma {:induction false} BeforeAfterHead(head: string, first: string, rest: string)
    requires '#' !in head
    ensures Before(head + (first + ("&" + rest)), '#') ==
      if '#' in first then head + Before(first, '#') else head + (first + ("&" + Before(rest, '#')))
  {
    BeforeConcat(head, first + ("&" + rest), '#');
    BeforeConcat(first, "&" + rest, '#');
    if '#' !in first {
      BeforeAbsent(first, '#');
      BeforeConcat("&", rest, '#');
      BeforeAbsent("&", '#');
    }
  }

  /** Where the fragment cuts a URL `path?k=first&rest`. */
  lemma SentPartOfPiece(path: string, k: string, first: string, rest: string)
    requires '#' !in path && '#' !in k
    ensures '#' in first ==>
      SentPart(path + "?" + (k + "=" + first + "&" + rest)) == path + "?" + (k + "=" + Before(first, '#'))
    ensures '#' !in first ==>
      SentPart(path + "?" + (k + "=" + first + "&" + rest)) == path + "?" + (k + "=" + first + "&" + Before(rest, '#'))
  {
    var head := path + "?" + k + "=";
    HeadAvoids(path, k, '#');
    GlueHead(path, k, first, rest);
    BeforeAfterHead(head, first, rest);
    Regroup3(head, Before(first, '#'), Before(rest, '#'), path, k);
    Regroup3(head, first, Before(rest, '#'), path, k);
  }

  /** The first parameter of a query whose first piece is `k=first`: the
      value is `first` up to its first `#`, where the fragment begins. */
  lemma ReadFirstPiece(url: string, path: string, k: string, first: string, rest: string)
    requires url == path + "?" + (k + "=" + first + "&" + rest)
    requires '?' !in path && '#' !in path && '=' !in k && '&' !in k && '#' !in k && '&' !in first
    ensures |QueryParameters(url)| >= 1 && QueryParameters(url)[0] == (k, Before(first, '#'))
  {
    SentPartOfPiece(path, k, first, rest);
    BeforeChars(first, '#');
    if '#' in first {
      ReadSent(url, path, k + "=" + Before(first, '#'));
      ReadOnlyPiece(k, Before(first, '#'));
    } else {
      BeforeAbsent(first, '#');
      ReadSent(url, path, k + "=" + first + "&" + Before(rest, '#'));
      ReadLeadingPiece(k, first, Before(rest, '#'));
    }
  }

  /** A value read up to its first `&` and then up to its first `#` is not
      the whole string it was cut from. */
  lemma CutValueDiffers(e: string, first: string, after: string)
    requires e == first + "&" + after && '&' !in first
    ensures Before(first, '#') != e
  {
    BeforeChars(first, '#');
    assert e[|first|] == '&';
  }

  /** Unlike the job search, the people search does not escape `&`: for a
      term containing one, the keywords parameter read back from the URL is
      cut short and is never the escaped term. */
  lemma AmpersandCutsPeopleKeywords(term: string, level: ExperienceLevel)
    requires '&' in term
    ensures var ps := QueryParameters(PeopleUrl(term, level));
      |ps| >= 1 && ps[0].0 == "keywords" && ps[0].1 != EscapeSpaces(term)
  {
    var e := EscapeSpaces(term);
    EscapeSpacesKeepsOthers(term, '&');
    var first, after := SplitAtFirst(e, '&');
    var more := "&f_E=" + Digit(level.Code()) + "&origin=SWITCH_SEARCH_VERTICAL&sid=5GE";
    PeopleUrlCut(term, level, first, after);
    PathsHaveNoQuery();
    KeywordsName();
    ReadFirstPiece(PeopleUrl(term, level), PeoplePath, "keywords", first, after + more);
    CutValueDiffers(e, first, after);
  }

  lemma PeopleUrlCut(term: string, level: ExperienceLevel, first: string, after: string)
    requires EscapeSpaces(term) == first + "&" + after
    ensures PeopleUrl(term, level) == PeoplePath + "?" + ("keywords" + "=" + first + "&"
      + (after + ("&f_E=" + Digit(level.Code()) + "&origin=SWITCH_SEARCH_VERTICAL&sid=5GE")))
  {
    var more := "&f_E=" + Digit(level.Code()) + "&origin=SWITCH_SEARCH_VERTICAL&sid=5GE";
    PeopleLiteral();
    GlueCut(BasePeopleUrl, PeoplePath, "keywords", first, after, more);
  }

  /** A string with a `#` in its middle part is cut inside that part. */
  lemma FragmentInMiddle(head: string, e: string, tail: string)
    requires '#' !in head && '#' in e
    ensures Before(head + (e + tail), '#') == head + Before(e, '#')
  {
    BeforeConcat(head, e + tail, '#');
    BeforeConcat(e, tail, '#');
  }

  /** The people search does not escape `#` either: for a term containing
      one, everything from the `#` on is the URL's fragment, which the client
      leaves out of the request. The URL text before the fragment holds the
      keywords up to the `#` and none of `f_E`, `origin` and `sid`. */
  lemma HashCutsPeopleQuery(term: string, level: ExperienceLevel)
    requires '#' in term
    ensures SentPart(PeopleUrl(term, level)) == BasePeopleUrl + Before(EscapeSpaces(term), '#')
    ensures '&' !in term ==>
      QueryParameters(PeopleUrl(term, level)) == [("keywords", Before(EscapeSpaces(term), '#'))]
  {
    var e := EscapeSpaces(term);
    EscapeSpacesKeepsOthers(term, '#');
    PeopleUrlSplit(term, level);
    PeopleLiteral();
    PathsHaveNoQuery();
    HeadAvoids(PeoplePath, "keywords", '#');
    FragmentInMiddle(BasePeopleUrl, e, "&f_E=" + Digit(level.Code()) + "&origin=SWITCH_SEARCH_VERTICAL&sid=5GE");
    if '&' !in term {
      var v := Before(e, '#');
      EscapeSpacesKeepsOthers(term, '&');
      BeforeChars(e, '#');
      KeywordsName();
      PeopleBaseGlue(v);
      ReadSent(PeopleUrl(term, level), PeoplePath, "keywords" + "=" + v);
      ReadOnlyPiece("keywords", v);
    }
  }

  /** For a term containing `#`, the six experience levels give one and the
      same URL text before the fragment, so they make one and the same
      request. */
  lemma HashMakesLevelsCoincide(term: string, l1: ExperienceLevel, l2: ExperienceLevel)
    requires '#' in term
    ensures SentPart(PeopleUrl(term, l1)) == SentPart(PeopleUrl(term, l2))
  {
    HashCutsPeopleQuery(term, l1);
    HashCutsPeopleQuery(term, l2);
  }

  /** The people search writes `+` into the URL as it is, so a form decoder, which reads
      `+` as a space as for the job search, alters the term: for "C++" the
      keywords are "C++", undoing the `%20` escape gives "C++" back, and form
      decoding gives "C  ". */
  lemma PlusReadAsSpace(level: ExperienceLevel)
    ensures var v := QueryParameters(PeopleUrl("C++", level))[0].1;
      v == "C++" && UnescapeSpaces(v) == "C++" && Dequote(v) == Some("C  ")
  {
    PeopleUrlParameters("C++", level);
    PlusKeptByEscape();
    UnescapeEscapedSpaces("C++");
    SpacesQuotedAsPlus();
    DequoteQuotePlus("C  ");
  }

  lemma PlusKeptByEscape()
    ensures EscapeSpaces("C++") == "C++"
  {
    assert EscapeSpaces("+") == "+";
    assert "C++"[1..] == "++" && "++"[1..] == "+";
  }

  lemma SpacesQuotedAsPlus()
    ensures QuotePlus("C  ") == "C++"
  {
    var space: Utf8.byte := 0x20;
    var c: Utf8.byte := 0x43;
    assert Utf8.Encode("C  ") == [c, space, space] by {
      assert "C  "[1..] == "  " && "  "[1..] == " " && " "[1..] == "";
      assert Utf8.Encode(" ") == Utf8.EncodeChar(' ') + Utf8.Encode("");
      assert Utf8.Encode("  ") == Utf8.EncodeChar(' ') + Utf8.Encode(" ");
      assert Utf8.Encode("C  ") == Utf8.EncodeChar('C') + Utf8.Encode("  ");
    }
    assert QuoteBytes([c, space, space]) == "C++" by {
      assert [c, space, space][1..] == [space, space];
      assert [space, space][1..] == [space] && [space][1..] == [];
      assert Unreserved(c);
      assert QuoteBytes([space]) == "+" + QuoteBytes([]);
      assert QuoteBytes([space, space]) == "+" + QuoteBytes([space]);
      assert QuoteBytes([c, space, space]) == "C" + QuoteBytes([space, space]);
    }
  }

  // ---------------------------------------------------------------------
  // Spelling out the literals and regrouping concatenations. Each lemma is
  // stated over plain strings, or names one literal, so that the proofs
  // above can use it without unfolding the long URL literals.

  /** The fixed parts of both URLs hold neither a space nor a `#`. */
  lemma BasesClean()
    ensures ' ' !in BaseJobsUrl && '#' !in BaseJobsUrl && ' ' !in BasePeopleUrl && '#' !in BasePeopleUrl
  {
    PathsHaveNoQuery();
    KeywordsFieldClean();
  }

  lemma GeographyClean()
    ensures ' ' !in GeoSegment && '#' !in GeoSegment
  {
  }

  lemma PeopleTailClean(d: int)
    requires 0 <= d <= 9
    ensures ' ' !in "&f_E=" + Digit(d) && '#' !in "&f_E=" + Digit(d)
    ensures ' ' !in "&origin=SWITCH_SEARCH_VERTICAL&sid=5GE" && '#' !in "&origin=SWITCH_SEARCH_VERTICAL&sid=5GE"
  {
    FixedTailClean();
  }

  lemma OriginClean()
    ensures '?' !in "https://www.linkedin.com" && '#' !in "https://www.linkedin.com"
    ensures ' ' !in "https://www.linkedin.com"
  {
  }

  lemma JobsRouteClean()
    ensures '?' !in "/jobs/search/" && '#' !in "/jobs/search/" && ' ' !in "/jobs/search/"
  {
  }

  lemma PeopleRouteClean()
    ensures '?' !in "/search/results/people/" && '#' !in "/search/results/people/"
    ensures ' ' !in "/search/results/people/"
  {
  }

  lemma KeywordsFieldClean()
    ensures ' ' !in "?keywords=" && '#' !in "?keywords="
    ensures "?keywords=" == "?" + "keywords" + "="
  {
  }

  lemma FixedTailClean()
    ensures ' ' !in "&origin=SWITCH_SEARCH_VERTICAL&sid=5GE" && '#' !in "&origin=SWITCH_SEARCH_VERTICAL&sid=5GE"
  {
  }

  lemma AvoidsFour(a: string, b: string, c: string, d: string, x: char)
    requires x !in a && x !in b && x !in c && x !in d
    ensures x !in a + b + c + d
  {
  }

  lemma HoldsIffMiddle(a: string, b: string, c: string, d: string, x: char)
    requires x !in a && x !in c && x !in d
    ensures x in a + b + c + d <==> x in b
  {
  }

  lemma StartsWith(a: string, b: string, c: string, d: string)
    ensures |a + b + c + d| >= |a| && (a + b + c + d)[..|a|] == a
  {
    assert a + b + c + d == a + (b + c + d);
  }

  lemma JobsLiteral()
    ensures BaseJobsUrl == JobsPath + "?" + "keywords" + "="
  {
    KeywordsFieldClean();
  }

  lemma PeopleLiteral()
    ensures BasePeopleUrl == PeoplePath + "?" + "keywords" + "="
  {
    KeywordsFieldClean();
  }

  /** A truthy level's filter, regrouped as one written parameter. */
  lemma SuffixPieces(level: Option<string>)
    requires Truthy(level)
    ensures ExperienceSuffix(level) == "&" + ("exp" + "=" + QuotePlus(level.value))
  {
    ExpLiteral();
    PrefixRegroup("&exp=", "&", "exp", "=", QuotePlus(level.value));
  }

  lemma ExpLiteral()
    ensures "&exp=" == "&" + "exp" + "="
  {
  }

  lemma PrefixRegroup(lit: string, a: string, b: string, c: string, q: string)
    requires lit == a + b + c
    ensures lit + q == a + (b + c + q)
  {
  }

  lemma GeoLiteral()
    ensures GeoSegment == "&" + ("geoId" + "=" + IndiaGeoId)
  {
  }

  lemma PeopleTailLiteral()
    ensures "&origin=SWITCH_SEARCH_VERTICAL&sid=5GE"
      == "&" + ("origin" + "=" + "SWITCH_SEARCH_VERTICAL") + "&" + ("sid" + "=" + "5GE")
  {
  }

  lemma CodeLiteral()
    ensures "&f_E=" == "&" + "f_E" + "="
  {
  }

  lemma KeywordsName()
    ensures '=' !in "keywords" && '&' !in "keywords" && '#' !in "keywords"
  {
  }

  lemma ExpName()
    ensures '=' !in "exp" && '&' !in "exp" && '#' !in "exp"
  {
  }

  lemma GeoParameterClean()
    ensures CleanParameter(("geoId", IndiaGeoId))
  {
  }

  lemma CodeParameterClean(d: int)
    requires 0 <= d <= 9
    ensures CleanParameter(("f_E", Digit(d)))
  {
  }

  lemma FixedParametersClean()
    ensures CleanParameter(("origin", "SWITCH_SEARCH_VERTICAL")) && CleanParameter(("sid", "5GE"))
  {
  }

  lemma RenderTwo(a: (string, string), b: (string, string))
    ensures RenderQuery([a, b]) == a.0 + "=" + a.1 + "&" + (b.0 + "=" + b.1)
  {
    assert [a, b][1..] == [b];
  }

  /** Three parameters written out. */
  lemma RenderThree(a: (string, string), b: (string, string), c: (string, string))
    ensures RenderQuery([a, b, c]) == a.0 + "=" + a.1 + "&" + (b.0 + "=" + b.1) + "&" + (c.0 + "=" + c.1)
  {
    var pa, pb, pc := a.0 + "=" + a.1, b.0 + "=" + b.1, c.0 + "=" + c.1;
    assert [a, b, c][1..] == [b, c];
    RenderTwo(b, c);
    assert RenderQuery([a, b, c]) == pa + "&" + (pb + "&" + pc);
  }

  lemma RenderFour(a: (string, string), b: (string, string), c: (string, string), d: (string, string))
    ensures RenderQuery([a, b, c, d])
         == a.0 + "=" + a.1 + "&" + (b.0 + "=" + b.1) + "&" + (c.0 + "=" + c.1) + "&" + (d.0 + "=" + d.1)
  {
    var pa, pb, pc, pd := a.0 + "=" + a.1, b.0 + "=" + b.1, c.0 + "=" + c.1, d.0 + "=" + d.1;
    assert [a, b, c, d][1..] == [b, c, d];
    RenderThree(b, c, d);
    assert RenderQuery([a, b, c, d]) == pa + "&" + (pb + "&" + pc + "&" + pd);
  }

  lemma GlueOne(base: string, path: string, k: string, q: string)
    requires base == path + "?" + k + "="
    ensures base + q == path + "?" + (k + "=" + q)
  {
  }

  lemma GlueTwo(base: string, path: string, k: string, q: string, seg: string, n: string, v: string)
    requires base == path + "?" + k + "="
    requires seg == "&" + (n + "=" + v)
    ensures base + q + seg == path + "?" + (k + "=" + q + "&" + (n + "=" + v))
  {
  }

  lemma GlueThree(base: string, path: string, k: string, q: string,
                  seg1: string, n1: string, v1: string, seg2: string, n2: string, v2: string)
    requires base == path + "?" + k + "="
    requires seg1 == "&" + (n1 + "=" + v1)
    requires seg2 == "&" + (n2 + "=" + v2)
    ensures base + q + seg1 + seg2
         == path + "?" + (k + "=" + q + "&" + (n1 + "=" + v1) + "&" + (n2 + "=" + v2))
  {
  }

  lemma GlueFour(base: string, path: string, k: string, e: string, seg: string, n1: string, d: string,
                 tail: string, n2: string, v2: string, n3: string, v3: string)
    requires base == path + "?" + k + "="
    requires seg == "&" + n1 + "="
    requires tail == "&" + (n2 + "=" + v2) + "&" + (n3 + "=" + v3)
    ensures base + e + seg + d + tail
         == path + "?" + (k + "=" + e + "&" + (n1 + "=" + d) + "&" + (n2 + "=" + v2) + "&" + (n3 + "=" + v3))
  {
  }

  lemma GlueCut(base: string, path: string, k: string, first: string, after: string, more: string)
    requires base == path + "?" + k + "="
    ensures base + (first + "&" + after) + more == path + "?" + (k + "=" + first + "&" + (after + more))
  {
  }

  lemma GlueHead(path: string, k: string, first: string, rest: string)
    ensures path + "?" + (k + "=" + first + "&" + rest) == (path + "?" + k + "=") + (first + ("&" + rest))
  {
  }

  lemma HeadAvoids(path: string, k: string, c: char)
    requires c !in path && c !in k && c != '?' && c != '='
    ensures c !in path + "?" + k + "="
  {
  }

  lemma Regroup(a: string, b: string, c: string, d: string, e: string)
    ensures a + b + c + d + e == a + (b + (c + d + e))
  {
  }

  lemma Regroup3(head: string, a: string, b: string, path: string, k: string)
    requires head == path + "?" + k + "="
    ensures head + a == path + "?" + (k + "=" + a)
    ensures head + (a + ("&" + b)) == path + "?" + (k + "=" + a + "&" + b)
  {
  }

  lemma PeopleUrlSplit(term: string, level: ExperienceLevel)
    ensures PeopleUrl(term, level) == BasePeopleUrl + (EscapeSpaces(term)
      + ("&f_E=" + Digit(level.Code()) + "&origin=SWITCH_SEARCH_VERTICAL&sid=5GE"))
  {
    Regroup(BasePeopleUrl, EscapeSpaces(term), "&f_E=", Digit(level.Code()), "&origin=SWITCH_SEARCH_VERTICAL&sid=5GE");
  }

  lemma PeopleBaseGlue(v: string)
    ensures BasePeopleUrl + v == PeoplePath + "?" + ("keywords" + "=" + v)
  {
    PeopleLiteral();
  }
}

=== FILE: scraper.dfy ===
/** The scraper objects of utils/job_scraper.py: construction from one term or
    a list of terms, the two job searches (India and worldwide), which skip a
    term whose request fails, and the people search. */
module Scraper {
  import opened Outcomes
  import opened Fetching
  import opened Queries
  import opened Listings
  import People

  /** What the constructor is given: a list of terms, or any single value
      (modelled as one string). */
  datatype TermsArgument = TermList(terms: seq<string>) | SingleTerm(term: string)

  /** `LinkedInScraper` searches job titles, `LinkedInSkillScraper` skills;
      both search the same way. */
  datatype SearchCategory = JobTitles | Skills

  datatype LinkedInScraper = LinkedInScraper(category: SearchCategory, searchTerms: seq<string>)

  /** The constructor's normalisation: a list is kept as it is, anything else
      becomes a one-element list. */
  function SearchTermsOf(arg: TermsArgument): (terms: seq<string>)
    ensures arg.TermList? ==> terms == arg.terms
    ensures arg.SingleTerm? ==> |terms| == 1 && terms[0] == arg.term
  {
    match arg
    case TermList(ts) => ts
    case SingleTerm(t) => [t]
  }

  function NewLinkedInScraper(arg: TermsArgument): (s: LinkedInScraper)
    ensures s.category == JobTitles && s.searchTerms == SearchTermsOf(arg)
  {
    LinkedInScraper(JobTitles, SearchTermsOf(arg))
  }

  function NewSkillScraper(arg: TermsArgument): (s: LinkedInScraper)
    ensures s.category == Skills && s.searchTerms == SearchTermsOf(arg)
  {
    LinkedInScraper(Skills, SearchTermsOf(arg))
  }

  /** The result of one search term. */
  datatype Batch = Batch(jobTitle: string, source: string, jobs: seq<Listing>, applyLink: string)

  const Source := "LinkedIn"

  type JobsFetch = string -> Result<Response<seq<Card>>, RequestError>

  /** The batch of one term, or `None` when the request raised or its status
      is an error status: the scraper logs that and goes on with the next term. */
  function BatchFor(term: string, level: Option<string>, region: Region, fetch: JobsFetch): (b: Option<Batch>)
    ensures b.Some? <==> PageAfterChecks(fetch(JobsUrl(term, level, region))).Some?
    ensures b.Some? ==> b.value.jobTitle == term && b.value.source == Source
    ensures b.Some? ==> b.value.applyLink == JobsUrl(term, level, region)
    ensures b.Some? ==> b.value.jobs == ListingsOf(PageAfterChecks(fetch(JobsUrl(term, level, region))).value)
    ensures b.Some? ==> |b.value.jobs| <= MaxListings
  {
    var url := JobsUrl(term, level, region);
    match PageAfterChecks(fetch(url))
    case None => None
    case Some(cards) => Some(Batch(term, Source, ListingsOf(cards), url))
  }

  /** The batches of the terms, in term order, skipping each term whose
      request failed. */
  function JobBatches(terms: seq<string>, level: Option<string>, region: Region, fetch: JobsFetch): (batches: seq<Batch>)
    ensures |batches| <= |terms|
    ensures forall k :: 0 <= k < |batches| ==> batches[k].source == Source && |batches[k].jobs| <= MaxListings
    ensures forall k :: 0 <= k < |batches| ==>
              batches[k].jobTitle in terms && batches[k].applyLink == JobsUrl(batches[k].jobTitle, level, region)
    ensures (forall i :: 0 <= i < |terms| ==> BatchFor(terms[i], level, region, fetch).Some?) ==> |batches| == |terms|
    decreases |terms|
  {
    if |terms| == 0 then []
    else
      var rest := JobBatches(terms[1..], level, region, fetch);
      match BatchFor(terms[0], level, region, fetch)
      case None =>
        AllPresentTail(terms, t => BatchFor(t, level, region, fetch).Some?);
        rest
      case Some(b) =>
        PrependBatch(terms, b, rest, t => JobsUrl(t, level, region));
        AllPresentTail(terms, t => BatchFor(t, level, region, fetch).Some?);
        [b] + rest
  }

  /** A batch for the first term in front of batches for the later terms. */
  lemma PrependBatch(terms: seq<string>, b: Batch, rest: seq<Batch>, url: string -> string)
    requires |terms| > 0 && b.jobTitle == terms[0] && b.applyLink == url(terms[0])
    requires b.source == Source && |b.jobs| <= MaxListings
    requires forall k :: 0 <= k < |rest| ==> rest[k].source == Source && |rest[k].jobs| <= MaxListings
    requires forall k :: 0 <= k < |rest| ==> rest[k].jobTitle in terms[1..] && rest[k].applyLink == url(rest[k].jobTitle)
    ensures forall k :: 0 <= k < |[b] + rest| ==> ([b] + rest)[k].source == Source && |([b] + rest)[k].jobs| <= MaxListings
    ensures forall k :: 0 <= k < |[b] + rest| ==>
              ([b] + rest)[k].jobTitle in terms && ([b] + rest)[k].applyLink == url(([b] + rest)[k].jobTitle)
  {
    forall k | 0 < k < |[b] + rest|
      ensures ([b] + rest)[k].jobTitle in terms
    {
      assert ([b] + rest)[k] == rest[k - 1];
      var i :| 0 <= i < |terms[1..]| && terms[1..][i] == rest[k - 1].jobTitle;
      assert terms[i + 1] == rest[k - 1].jobTitle;
    }
  }

  /** When the property holds at every term, it holds at every later term. */
  lemma AllPresentTail(terms: seq<string>, p: string -> bool)
    requires |terms| > 0
    ensures (forall i :: 0 <= i < |terms| ==> p(terms[i])) ==> (forall i :: 0 <= i < |terms[1..]| ==> p(terms[1..][i]))
  {
    if forall i :: 0 <= i < |terms| ==> p(terms[i]) {
      forall i | 0 <= i < |terms[1..]|
        ensures p(terms[1..][i])
      {
        assert terms[1..][i] == terms[i + 1];
      }
    }
  }

  /** The number of entries of `xs` holding a value. */
  function CountPresent<T>(xs: seq<Option<T>>): nat
    decreases |xs|
  {
    if |xs| == 0 then 0 else (if xs[0].Some? then 1 else 0) + CountPresent(xs[1..])
  }

  /** The values present in `xs`, in order. */
  function Present<T>(xs: seq<Option<T>>): (vs: seq<T>)
    ensures |vs| == CountPresent(xs)
    decreases |xs|
  {
    if |xs| == 0 then []
    else if xs[0].Some? then [xs[0].value] + Present(xs[1..])
    else Present(xs[1..])
  }

  /** Each value of `xs` lands in `Present(xs)` at the number of values
      before it, so values keep their order and none is lost. */
  lemma {:induction false} PresentAt<T>(xs: seq<Option<T>>, i: nat)
    requires i < |xs| && xs[i].Some?
    ensures CountPresent(xs[..i]) < |Present(xs)|
    ensures Present(xs)[CountPresent(xs[..i])] == xs[i].value
    decreases i
  {
    if i > 0 {
      PresentAt(xs[1..], i - 1);
      assert xs[..i][1..] == xs[1..][..i - 1];
    }
  }

  /** Counting a prefix never exceeds counting the whole. */
  lemma {:induction false} CountPrefix<T>(xs: seq<Option<T>>, i: nat)
    requires i <= |xs|
    ensures CountPresent(xs[..i]) <= CountPresent(xs)
    ensures i < |xs| && xs[i].Some? ==> CountPresent(xs[..i]) < CountPresent(xs[..i + 1])
    decreases i
  {
    if i > 0 {
      CountPrefix(xs[1..], i - 1);
      assert xs[..i][1..] == xs[1..][..i - 1];
      if i < |xs| {
        assert xs[..i + 1][1..] == xs[1..][..i];
      }
    } else if i < |xs| {
      assert xs[..1][1..] == [];
    }
  }

  /** The attempt for every term, successful or not. */
  function Attempts(terms: seq<string>, level: Option<string>, region: Region, fetch: JobsFetch): (xs: seq<Option<Batch>>)
    ensures |xs| == |terms|
    ensures forall i :: 0 <= i < |terms| ==> xs[i] == BatchFor(terms[i], level, region, fetch)
  {
    seq(|terms|, i requires 0 <= i < |terms| => BatchFor(terms[i], level, region, fetch))
  }

  /** The loop's batches are the present attempts. */
  lemma {:induction false} JobBatchesArePresent(terms: seq<string>, level: Option<string>, region: Region, fetch: JobsFetch)
    ensures JobBatches(terms, level, region, fetch) == Present(Attempts(terms, level, region, fetch))
    decreases |terms|
  {
    if |terms| > 0 {
      JobBatchesArePresent(terms[1..], level, region, fetch);
      var xs := Attempts(terms, level, region, fetch);
      assert xs[1..] == Attempts(terms[1..], level, region, fetch);
    }
  }

  /** The number of terms among `terms[..i]` whose request succeeded. */
  function SucceededBefore(terms: seq<string>, i: nat, level: Option<string>, region: Region, fetch: JobsFetch): nat
    requires i <= |terms|
  {
    CountPresent(Attempts(terms, level, region, fetch)[..i])
  }

  /** The batches are the successful terms' batches, in term order: there is
      one batch per successful term, and the batch of a successful term comes
      right after those of the successful terms before it. A failed term
      leaves no batch behind. */
  lemma BatchesOfSuccessfulTerms(terms: seq<string>, level: Option<string>, region: Region, fetch: JobsFetch)
    ensures |JobBatches(terms, level, region, fetch)| == SucceededBefore(terms, |terms|, level, region, fetch)
    ensures forall i: nat :: i < |terms| && BatchFor(terms[i], level, region, fetch).Some? ==>
              && SucceededBefore(terms, i, level, region, fetch) < |JobBatches(terms, level, region, fetch)|
              && JobBatches(terms, level, region, fetch)[SucceededBefore(terms, i, level, region, fetch)]
                 == BatchFor(terms[i], level, region, fetch).value
  {
    var xs := Attempts(terms, level, region, fetch);
    JobBatchesArePresent(terms, level, region, fetch);
    assert xs[..|terms|] == xs;
    forall i: nat | i < |terms| && BatchFor(terms[i], level, region, fetch).Some?
      ensures SucceededBefore(terms, i, level, region, fetch) < |JobBatches(terms, level, region, fetch)|
      ensures JobBatches(terms, level, region, fetch)[SucceededBefore(terms, i, level, region, fetch)]
              == BatchFor(terms[i], level, region, fetch).value
    {
      PresentAt(xs, i);
    }
  }

  /** Successful terms get strictly increasing batch positions. */
  lemma BatchPositionsIncrease(terms: seq<string>, level: Option<string>, region: Region, fetch: JobsFetch, i: nat, j: nat)
    ensures i < j <= |terms| && BatchFor(terms[i], level, region, fetch).Some? ==>
      SucceededBefore(terms, i, level, region, fetch) < SucceededBefore(terms, j, level, region, fetch)
  {
    if i < j <= |terms| && BatchFor(terms[i], level, region, fetch).Some? {
      CountIncreases(Attempts(terms, level, region, fetch), i, j);
    }
  }

  /** A value at `i` is counted by every prefix reaching past `i`. */
  lemma CountIncreases<T>(xs: seq<Option<T>>, i: nat, j: nat)
    requires i < j <= |xs| && xs[i].Some?
    ensures CountPresent(xs[..i]) < CountPresent(xs[..j])
  {
    CountPrefix(xs, i);
    assert xs[..j][..i + 1] == xs[..i + 1];
    CountPrefix(xs[..j], i + 1);
  }

  /** `fetch_jobs`: the search restricted to India. */
  function FetchJobs(scraper: LinkedInScraper, level: Option<string>, fetch: JobsFetch): (batches: seq<Batch>)
    ensures |batches| <= |scraper.searchTerms|
    ensures forall k :: 0 <= k < |batches| ==> batches[k].applyLink == JobsUrl(batches[k].jobTitle, level, India)
  {
    JobBatches(scraper.searchTerms, level, India, fetch)
  }

  /** `fetch_jobs_OutsideIndia`: the same search without the geography filter. */
  function FetchJobsOutsideIndia(scraper: LinkedInScraper, level: Option<string>, fetch: JobsFetch): (batches: seq<Batch>)
    ensures |batches| <= |scraper.searchTerms|
    ensures forall k :: 0 <= k < |batches| ==> batches[k].applyLink == JobsUrl(batches[k].jobTitle, level, Worldwide)
  {
    JobBatches(scraper.searchTerms, level, Worldwide, fetch)
  }

  /** Every link of the India search carries the India geography as its
      second parameter. */
  lemma IndiaBatchesCarryGeography(scraper: LinkedInScraper, level: Option<string>, fetch: JobsFetch, k: int)
    ensures 0 <= k < |FetchJobs(scraper, level, fetch)| ==>
      var ps := QueryParameters(FetchJobs(scraper, level, fetch)[k].applyLink);
      |ps| >= 2 && ps[1] == ("geoId", IndiaGeoId)
  {
    if 0 <= k < |FetchJobs(scraper, level, fetch)| {
      var b := FetchJobs(scraper, level, fetch)[k];
      GeographyOnlyForIndia(b.jobTitle, level, India);
    }
  }

  /** No link of the worldwide search has a geography parameter. */
  lemma WorldwideBatchesLackGeography(scraper: LinkedInScraper, level: Option<string>, fetch: JobsFetch, k: int)
    ensures 0 <= k < |FetchJobsOutsideIndia(scraper, level, fetch)| ==>
      var ps := QueryParameters(FetchJobsOutsideIndia(scraper, level, fetch)[k].applyLink);
      forall j :: 0 <= j < |ps| ==> ps[j].0 != "geoId"
  {
    if 0 <= k < |FetchJobsOutsideIndia(scraper, level, fetch)| {
      var b := FetchJobsOutsideIndia(scraper, level, fetch)[k];
      GeographyOnlyForIndia(b.jobTitle, level, Worldwide);
    }
  }

  /** `fetch_people`; its `Exp_Level` argument is never read, so the
      model has none. */
  function FetchPeople(scraper: LinkedInScraper, fetch: People.PeopleFetch): (r: Result<seq<People.PeopleResult>, People.SearchError>)
    ensures r.Ok? ==> |r.value| == |scraper.searchTerms|
  {
    People.FetchPeople(scraper.searchTerms, fetch)
  }

  /** The skill scraper is the job-title scraper under another name: built from
      the same argument, every search gives the same result. */
  lemma SkillScraperSearchesAlike(arg: TermsArgument, level: Option<string>, jobs: JobsFetch, people: People.PeopleFetch)
    ensures FetchJobs(NewSkillScraper(arg), level, jobs) == FetchJobs(NewLinkedInScraper(arg), level, jobs)
    ensures FetchJobsOutsideIndia(NewSkillScraper(arg), level, jobs) == FetchJobsOutsideIndia(NewLinkedInScraper(arg), level, jobs)
    ensures FetchPeople(NewSkillScraper(arg), people) == FetchPeople(NewLinkedInScraper(arg), people)
  {
  }
}

=== FILE: strings.dfy ===
/** Substring search, which the scraper uses as Python's `pat in s`, and
    splitting on a separator character, which the model's own query reader
    uses; each with a declarative meaning proved about it. */
module Strings {

  /** `pat` occurs in `s` starting at index `i`. */
  predicate OccursAt(s: string, pat: string, i: int) {
    0 <= i && i + |pat| <= |s| && s[i..i + |pat|] == pat
  }

  /** Python's `pat in s`, computed by a left-to-right scan. */
  function Contains(s: string, pat: string): bool
    decreases |s|
  {
    if |s| < |pat| then false
    else if s[..|pat|] == pat then true
    else Contains(s[1..], pat)
  }

  /** The scan finds `pat` exactly when it occurs somewhere in `s`. */
  lemma {:induction false} ContainsMeansOccurs(s: string, pat: string)
    ensures Contains(s, pat) <==> exists i :: OccursAt(s, pat, i)
    decreases |s|
  {
    if |s| < |pat| {
    } else if s[..|pat|] == pat {
      assert OccursAt(s, pat, 0);
    } else {
      ContainsMeansOccurs(s[1..], pat);
      if exists i :: OccursAt(s[1..], pat, i) {
        var i :| OccursAt(s[1..], pat, i);
        assert s[1..][i..i + |pat|] == s[i + 1..i + 1 + |pat|];
        assert OccursAt(s, pat, i + 1);
      }
      if exists i :: OccursAt(s, pat, i) {
        var i :| OccursAt(s, pat, i);
        assert i != 0;
        assert s[1..][i - 1..i - 1 + |pat|] == s[i..i + |pat|];
        assert OccursAt(s[1..], pat, i - 1);
      }
    }
  }

  /** Python's `s.split(sep)` for a one-character separator: the maximal
      pieces between separators, always at least one. */
  function Split(s: string, sep: char): (parts: seq<string>)
    ensures |parts| >= 1
    ensures forall k :: 0 <= k < |parts| ==> sep !in parts[k]
    decreases |s|
  {
    if |s| == 0 then [""]
    else if s[0] == sep then [""] + Split(s[1..], sep)
    else
      var rest := Split(s[1..], sep);
      [[s[0]] + rest[0]] + rest[1..]
  }

  /** Joining the pieces back with the separator gives the original text. */
  function Join(parts: seq<string>, sep: char): string
    requires |parts| >= 1
    decreases |parts|
  {
    if |parts| == 1 then parts[0] else parts[0] + [sep] + Join(parts[1..], sep)
  }

  /** A text without the separator is one piece. */
  lemma {:induction false} SplitWhole(a: string, sep: char)
    requires sep !in a
    ensures Split(a, sep) == [a]
    decreases |a|
  {
    if |a| > 0 {
      SplitWhole(a[1..], sep);
      assert [a[0]] + a[1..] == a;
    }
  }

  /** The first separator of `a + [sep] + b` ends the first piece. */
  lemma {:induction false} SplitFirst(a: string, sep: char, b: string)
    requires sep !in a
    ensures Split(a + [sep] + b, sep) == [a] + Split(b, sep)
    decreases |a|
  {
    if |a| == 0 {
      assert a + [sep] + b == [sep] + b;
      assert ([sep] + b)[1..] == b;
    } else {
      var s := a + [sep] + b;
      assert s[0] == a[0];
      assert s[1..] == a[1..] + [sep] + b;
      SplitFirst(a[1..], sep, b);
      assert [a[0]] + a[1..] == a;
    }
  }

  /** Splitting and joining are inverse: every text is recovered from its
      pieces. */
  lemma {:induction false} JoinSplit(s: string, sep: char)
    ensures Join(Split(s, sep), sep) == s
    decreases |s|
  {
    if |s| == 0 {
    } else if s[0] == sep {
      JoinSplit(s[1..], sep);
      var rest := Split(s[1..], sep);
      assert Split(s, sep)[1..] == rest;
      assert s == [] + [sep] + s[1..];
    } else {
      JoinSplit(s[1..], sep);
      var rest := Split(s[1..], sep);
      var parts := Split(s, sep);
      assert parts[0] == [s[0]] + rest[0];
      if |rest| == 1 {
        assert s == [s[0]] + s[1..];
      } else {
        assert parts[1..] == rest[1..];
        assert Join(rest, sep) == rest[0] + [sep] + Join(rest[1..], sep);
        assert s == [s[0]] + s[1..];
      }
    }
  }

  /** The text after the first occurrence of `c`, or "" when `c` is absent. */
  function After(s: string, c: char): string
    decreases |s|
  {
    if |s| == 0 then ""
    else if s[0] == c then s[1..]
    else After(s[1..], c)
  }

  /** The text before the first occurrence of `c`, or all of `s`. */
  function Before(s: string, c: char): string
    decreases |s|
  {
    if |s| == 0 then ""
    else if s[0] == c then ""
    else [s[0]] + Before(s[1..], c)
  }

  /** Cutting `a + [c] + b` at its first `c` gives back `a` and `b` when `a`
      has no `c`. */
  lemma {:induction false} CutAtFirst(a: string, c: char, b: string)
    requires c !in a
    ensures Before(a + [c] + b, c) == a
    ensures After(a + [c] + b, c) == b
    decreases |a|
  {
    var s := a + [c] + b;
    if |a| == 0 {
      assert s == [c] + b;
      assert s[1..] == b;
    } else {
      assert s[0] == a[0];
      assert s[1..] == a[1..] + [c] + b;
      CutAtFirst(a[1..], c, b);
      assert [a[0]] + a[1..] == a;
    }
  }

  /** A text without `c` is kept whole. */
  lemma {:induction false} BeforeAbsent(s: string, c: char)
    requires c !in s
    ensures Before(s, c) == s
    decreases |s|
  {
    if |s| > 0 {
      BeforeAbsent(s[1..], c);
      assert [s[0]] + s[1..] == s;
    }
  }

  /** The text before the first `c` of `a + b` lies in `a` when `a` has a `c`,
      and otherwise runs on into `b`. */
  lemma {:induction false} BeforeConcat(a: string, b: string, c: char)
    ensures Before(a + b, c) == if c in a then Before(a, c) else a + Before(b, c)
    decreases |a|
  {
    if |a| == 0 {
      assert a + b == b;
    } else {
      assert (a + b)[0] == a[0];
      assert (a + b)[1..] == a[1..] + b;
      BeforeConcat(a[1..], b, c);
      if a[0] != c {
        assert [a[0]] + a[1..] == a;
        assert c in a <==> c in a[1..];
      }
    }
  }

  /** The text before the first `c` has no `c`, and no character `s` lacks. */
  lemma {:induction false} BeforeChars(s: string, c: char)
    ensures c !in Before(s, c)
    ensures forall x :: x in Before(s, c) ==> x in s
    decreases |s|
  {
    if |s| > 0 && s[0] != c {
      BeforeChars(s[1..], c);
    }
  }

  /** Cuts `s` at the first occurrence of `c`. */
  lemma {:induction false} SplitAtFirst(s: string, c: char) returns (first: string, after: string)
    requires c in s
    ensures s == first + [c] + after && c !in first
    decreases |s|
  {
    if s[0] == c {
      first, after := [], s[1..];
    } else {
      var f, a := SplitAtFirst(s[1..], c);
      first, after := [s[0]] + f, a;
      assert s == [s[0]] + s[1..];
    }
  }
}

=== FILE: url_quote.dfy ===
/** Python's `urllib.parse.quote_plus(s)` with its defaults (`safe=''`,
    UTF-8, strict errors): the string is encoded to UTF-8 and each byte is
    written as itself when it is in the unreserved set of section 2.3 of
    RFC 3986 (`A-Z a-z 0-9 _ . - ~`), as `+` when it is a space, and as a
    percent-encoded octet with upper-case hex digits (section 2.1 of RFC 3986)
    otherwise. */
module UrlQuote {
  import opened Outcomes
  import Utf8

  /** The unreserved characters of section 2.3 of RFC 3986, by code. */
  predicate Unreserved(b: int) {
    || 'A' as int <= b <= 'Z' as int
    || 'a' as int <= b <= 'z' as int
    || '0' as int <= b <= '9' as int
    || b == '_' as int || b == '.' as int || b == '-' as int || b == '~' as int
  }

  /** The characters an escaped text is made of. */
  predicate QuotedChar(c: char) {
    Unreserved(c as int) || c == '+' || c == '%'
  }

  function HexDigit(d: int): (c: char)
    requires 0 <= d < 16
    ensures Unreserved(c as int)
  {
    if d < 10 then ('0' as int + d) as char else ('A' as int + d - 10) as char
  }

  predicate IsHexDigit(c: char) {
    '0' <= c <= '9' || 'A' <= c <= 'F' || 'a' <= c <= 'f'
  }

  function HexValue(c: char): (d: int)
    requires IsHexDigit(c)
    ensures 0 <= d < 16
  {
    if '0' <= c <= '9' then c as int - '0' as int
    else if 'A' <= c <= 'F' then c as int - 'A' as int + 10
    else c as int - 'a' as int + 10
  }

  /** The escape of one byte. */
  function QuoteByte(b: Utf8.byte): string {
    if b == 0x20 then "+"
    else if Unreserved(b) then [b as char]
    else ['%', HexDigit(b / 16), HexDigit(b % 16)]
  }

  function QuoteBytes(bs: seq<Utf8.byte>): (r: string)
    ensures forall i :: 0 <= i < |r| ==> QuotedChar(r[i])
    decreases |bs|
  {
    if |bs| == 0 then "" else QuoteByte(bs[0]) + QuoteBytes(bs[1..])
  }

  /** `quote_plus(s)`. The result uses only unreserved characters, `+` and
      `%`, so it never contains a query delimiter (`&`, `=`, `?`, `#`) or a
      space, and it is at least as long as `s`. */
  function QuotePlus(s: string): (r: string)
    ensures forall i :: 0 <= i < |r| ==> QuotedChar(r[i])
    ensures |r| >= |s|
  {
    QuoteBytesLength(Utf8.Encode(s));
    QuoteBytes(Utf8.Encode(s))
  }

  lemma {:induction false} QuoteBytesLength(bs: seq<Utf8.byte>)
    ensures |QuoteBytes(bs)| >= |bs|
    decreases |bs|
  {
    if |bs| > 0 {
      QuoteBytesLength(bs[1..]);
    }
  }

  /** The strict inverse of the byte escaping: `+` is a space, `%XY` the
      byte with hex value XY, an unreserved character its own code; any
      other character, or a `%` not followed by two hex digits, is rejected. */
  function DequoteBytes(q: string): Option<seq<Utf8.byte>>
    decreases |q|
  {
    if |q| == 0 then Some([])
    else
      var (b, k) :=
        if q[0] == '+' then (0x20, 1)
        else if q[0] == '%' && |q| >= 3 && IsHexDigit(q[1]) && IsHexDigit(q[2])
        then (HexValue(q[1]) * 16 + HexValue(q[2]), 3)
        else if Unreserved(q[0] as int) then (q[0] as int, 1)
        else (-1, 1);
      if b < 0 then None
      else match DequoteBytes(q[k..])
        case None => None
        case Some(rest) => Some([b as Utf8.byte] + rest)
  }

  /** Decodes an escaped text back to the string it came from. */
  function Dequote(q: string): Option<string> {
    match DequoteBytes(q)
    case None => None
    case Some(bs) => Utf8.Decode(bs)
  }

  lemma DequoteByte(b: Utf8.byte, rest: string)
    ensures DequoteBytes(QuoteByte(b) + rest) ==
      match DequoteBytes(rest)
      case None => None
      case Some(tail) => Some([b] + tail)
  {
    var q := QuoteByte(b) + rest;
    if b == 0x20 {
      assert q[1..] == rest;
    } else if Unreserved(b) {
      assert q[1..] == rest;
    } else {
      assert q[1..3] == [HexDigit(b / 16), HexDigit(b % 16)];
      assert q[3..] == rest;
    }
  }

  lemma {:induction false} DequoteQuoteBytes(bs: seq<Utf8.byte>)
    ensures DequoteBytes(QuoteBytes(bs)) == Some(bs)
    decreases |bs|
  {
    if |bs| > 0 {
      DequoteByte(bs[0], QuoteBytes(bs[1..]));
      DequoteQuoteBytes(bs[1..]);
      assert [bs[0]] + bs[1..] == bs;
    }
  }

  /** Every string survives escaping: decoding `quote_plus(s)` gives `s`. */
  lemma DequoteQuotePlus(s: string)
    ensures Dequote(QuotePlus(s)) == Some(s)
  {
    DequoteQuoteBytes(Utf8.Encode(s));
    Utf8.DecodeEncode(s);
  }

  /** A text made only of unreserved characters is left as it is. */
  lemma {:induction false} QuotePlusKeepsUnreserved(s: string)
    requires forall i :: 0 <= i < |s| ==> Unreserved(s[i] as int)
    ensures QuotePlus(s) == s
    decreases |s|
  {
    if |s| > 0 {
      QuotePlusKeepsUnreserved(s[1..]);
      assert Utf8.Encode(s) == [s[0] as int] + Utf8.Encode(s[1..]);
      assert Utf8.Encode(s)[1..] == Utf8.Encode(s[1..]);
      assert [s[0]] + s[1..] == s;
    }
  }
}

=== FILE: utf8.dfy ===
/** UTF-8, the encoding `quote_plus` applies to a string before escaping it
    byte by byte. A Dafny `char` is a Unicode scalar value, so every string
    has an encoding (Python's lone surrogates, which make the encoder raise,
    cannot occur). */
module Utf8 {
  import opened Outcomes

  type byte = b: int | 0 <= b < 0x100

  /** The 1 to 4 bytes that encode one scalar value. The payload is cut into
      6-bit groups by repeated division, most significant group first. */
  function EncodeChar(c: char): (bs: seq<byte>)
    ensures 1 <= |bs| <= 4
    ensures (c as int < 0x80) <==> |bs| == 1
    ensures |bs| == 1 ==> bs[0] == c as int
    ensures forall k :: 1 <= k < |bs| ==> 0x80 <= bs[k] < 0xC0
  {
    var n := c as int;
    var q1 := n / 0x40;
    var q2 := q1 / 0x40;
    var q3 := q2 / 0x40;
    if n < 0x80 then [n]
    else if n < 0x800 then [0xC0 + q1, 0x80 + n % 0x40]
    else if n < 0x10000 then [0xE0 + q2, 0x80 + q1 % 0x40, 0x80 + n % 0x40]
    else [0xF0 + q3, 0x80 + q2 % 0x40, 0x80 + q1 % 0x40, 0x80 + n % 0x40]
  }

  /** The UTF-8 encoding of a whole string. */
  function Encode(s: string): (bs: seq<byte>)
    ensures |s| <= |bs| <= 4 * |s|
    ensures |bs| == |s| <==> forall i :: 0 <= i < |s| ==> s[i] as int < 0x80
    decreases |s|
  {
    if |s| == 0 then [] else EncodeChar(s[0]) + Encode(s[1..])
  }

  /** A continuation byte `10xxxxxx`. */
  predicate IsContinuation(b: byte) {
    0x80 <= b < 0xC0
  }

  /** Reads one scalar value off the front of `bs`, with the number of bytes
      it used; `None` for a malformed, overlong or surrogate sequence. */
  function DecodeFirst(bs: seq<byte>): (r: Option<(char, nat)>)
    requires |bs| > 0
    ensures r.Some? ==> 1 <= r.value.1 <= |bs|
  {
    var b0: int := bs[0];
    if b0 < 0x80 then Some((b0 as char, 1))
    else if 0xC2 <= b0 < 0xE0 && |bs| >= 2 && IsContinuation(bs[1]) then
      var n := (b0 - 0xC0) * 0x40 + (bs[1] as int - 0x80);
      Some((n as char, 2))
    else if 0xE0 <= b0 < 0xF0 && |bs| >= 3 && IsContinuation(bs[1]) && IsContinuation(bs[2]) then
      var n := ((b0 - 0xE0) * 0x40 + (bs[1] as int - 0x80)) * 0x40 + (bs[2] as int - 0x80);
      if 0x800 <= n < 0xD800 || 0xE000 <= n then Some((n as char, 3)) else None
    else if 0xF0 <= b0 < 0xF5 && |bs| >= 4
            && IsContinuation(bs[1]) && IsContinuation(bs[2]) && IsContinuation(bs[3]) then
      var n := (((b0 - 0xF0) * 0x40 + (bs[1] as int - 0x80)) * 0x40 + (bs[2] as int - 0x80)) * 0x40 + (bs[3] as int - 0x80);
      if 0x10000 <= n < 0x110000 then Some((n as char, 4)) else None
    else None
  }

  /** Decodes a whole byte string, or `None` if any part is malformed. */
  function Decode(bs: seq<byte>): Option<string>
    decreases |bs|
  {
    if |bs| == 0 then Some("")
    else match DecodeFirst(bs)
      case None => None
      case Some((c, k)) =>
        match Decode(bs[k..])
        case None => None
        case Some(rest) => Some([c] + rest)
  }

  /** The bytes of one scalar value decode back to it, whatever follows. */
  lemma DecodeEncodedChar(c: char, rest: seq<byte>)
    ensures DecodeFirst(EncodeChar(c) + rest) == Some((c, |EncodeChar(c)|))
  {
    var n := c as int;
    if n < 0x80 {
    } else if n < 0x800 {
      DecodeTwoBytes(c, rest);
    } else if n < 0x10000 {
      DecodeThreeBytes(c, rest);
    } else {
      DecodeFourBytes(c, rest);
    }
  }

  lemma DecodeTwoBytes(c: char, rest: seq<byte>)
    requires 0x80 <= c as int < 0x800
    ensures DecodeFirst(EncodeChar(c) + rest) == Some((c, 2))
  {
    var n := c as int;
    var bs := EncodeChar(c) + rest;
    assert n == n / 0x40 * 0x40 + n % 0x40;
    assert bs[0] == 0xC0 + n / 0x40 && bs[1] == 0x80 + n % 0x40;
  }

  lemma DecodeThreeBytes(c: char, rest: seq<byte>)
    requires 0x800 <= c as int < 0x10000
    ensures DecodeFirst(EncodeChar(c) + rest) == Some((c, 3))
  {
    var n := c as int;
    var q1 := n / 0x40;
    var q2 := q1 / 0x40;
    var bs := EncodeChar(c) + rest;
    assert n == q1 * 0x40 + n % 0x40;
    assert q1 == q2 * 0x40 + q1 % 0x40;
    assert bs[0] == 0xE0 + q2 && bs[1] == 0x80 + q1 % 0x40 && bs[2] == 0x80 + n % 0x40;
  }

  lemma DecodeFourBytes(c: char, rest: seq<byte>)
    requires 0x10000 <= c as int
    ensures DecodeFirst(EncodeChar(c) + rest) == Some((c, 4))
  {
    var n := c as int;
    var q1 := n / 0x40;
    var q2 := q1 / 0x40;
    var q3 := q2 / 0x40;
    var bs := EncodeChar(c) + rest;
    assert n == q1 * 0x40 + n % 0x40;
    assert q1 == q2 * 0x40 + q1 % 0x40;
    assert q2 == q3 * 0x40 + q2 % 0x40;
    assert bs[0] == 0xF0 + q3 && bs[1] == 0x80 + q2 % 0x40;
    assert bs[2] == 0x80 + q1 % 0x40 && bs[3] == 0x80 + n % 0x40;
  }

  /** Decoding inverts encoding: every string survives the round trip. */
  lemma {:induction false} DecodeEncode(s: string)
    ensures Decode(Encode(s)) == Some(s)
    decreases |s|
  {
    if |s| > 0 {
      var head := EncodeChar(s[0]);
      var bs := Encode(s);
      assert bs == head + Encode(s[1..]);
      DecodeEncodedChar(s[0], Encode(s[1..]));
      assert bs[|head|..] == Encode(s[1..]);
      DecodeEncode(s[1..]);
      assert [s[0]] + s[1..] == s;
    }
  }
}
